=== FILE: README.md ===
# GMAG analysis core in Dafny

This project models the parts of the GMAG magnetic-measurement toolkit that
can be stated without its numerical libraries. The toolkit has two entry
points: the analysis library `GMAG.py` and the web application `app.py`,
which carries its own copy of the FMR fitting class. That copy (app.py:19-71) is the library's code line for line, so one `Loader` and one `Fitting` model both.

**FMR files.** A ferromagnetic-resonance measurement file is loaded into
rows of (field, angle, signal).
- Blank lines and `Filename:`/`#` headers are skipped.
- Decimal commas are read as points.
- The first three tokens of a line make its row. The line is dropped if it
  has fewer than three tokens or if any of those three is not a number.

The distinct angles are listed in ascending order. The points of one angle
are selected by exact equality on the angle column.

**FMR fits.** Each angle is fitted with the derivative-like resonance model
`modelo`, and a converged fit is stored under its angle. Angles are swept in
ascending order:
- The library's `FMR` runs an interactive menu loop on the smallest angle.
  Each later angle then starts from the parameters stored for the angle
  before it.
- The web application's `processar_fmr` does the same without the menu. It
  starts from the caller's parameters or from a fixed default, and wraps the
  result in a success or error envelope.

**Other analyses.** The model also covers the smaller helpers of the other
analyses:
- Hysteresis loops (VSM): the search for the sample nearest zero, remanence
  and coercivity, min-max normalisation of the magnetisation, and the cut at
  the `(emu)` header label.
- Impedance: commas turned into spaces, the fit window after the middle of
  the sweep, and the initial guesses of the asymmetric Lorentzian `lorentz`.
- Electromagnet calibration: decimal commas turned into points, and the
  voltage centred on its mean.

**How the model works.** Values are exact reals. The least-squares optimiser
is a parameter of the model: a function from the problem it is handed (seed,
points, bounds) to fitted parameters, or nothing when it does not converge.
Console answers and typed-in seeds arrive as a sequence of turns. Files
arrive as their lines or their text.

| module | file | models |
|---|---|---|
| `Fallible` | fallible.dfy | `Option` and `Result` |
| `RealMath` | realmath.dfy | absolute value, and facts about products and quotients |
| `Text` | text.dfy | Python's `strip`, `split`, `replace`, `startswith` and `find` |
| `Decimal` | decimal.dfy | the part of Python's `float(str)` a data file uses |
| `Loader` | loader.dfy | `carregar_dados`, and the selection in `ajustar_angulo` |
| `Lineshape` | lineshape.dfy | `modelo` and `lorentz` |
| `Fitting` | fitting.dfy | `ajustar_angulo`: seed reading, optimiser call, storing |
| `Sweep` | sweep.dfy | `FMR`: the menu loop and the angle chain |
| `App` | app.dfy | `processar_fmr` and its envelope |
| `Stats` | stats.dfy | max/min, normalisation, mean centring |
| `Hysteresis` | hysteresis.dfy | nearest-to-zero search, remanence, coercivity, `(emu)` strip |
| `Impedance` | impedance.dfy | comma to space, fit window, initial guesses |
| `Electromagnet` | electromagnet.dfy | `Eletroima` column reading and centring |

## Model

| member | source | states |
|---|---|---|
| Text.Strip | GMAG.py:25 | A stripped line is empty exactly when the line is all whitespace; otherwise it starts and ends with a non-space character. |
| Text.StripSlice | GMAG.py:25 | The stripped line is a contiguous part of the line with only whitespace before and after it. |
| Text.StripUntrimmed | GMAG.py:25 | A line that already starts and ends with a non-space character strips to itself. |
| Text.Split | GMAG.py:28 | Every token is a non-empty run of non-space characters, and there is no token exactly when the line is all whitespace. |
| Text.Find | GMAG.py:600 | `find` gives -1 exactly when the label occurs nowhere; otherwise it gives the first position where it occurs. |
| Text.StripIdempotent | GMAG.py:25 | Stripping a stripped line changes nothing. |
| Text.SplitJoin | GMAG.py:28 | Words joined by single spaces split back into the same words. |
| Text.SplitReplace | GMAG.py:31 | Replacing a non-space character by a non-space character before splitting replaces it in every token and keeps the token boundaries. |
| Text.ReplaceIdempotent | GMAG.py:179 | Replacing a character a second time changes nothing. |
| Decimal.Parse | GMAG.py:31 | A number is read only from a non-empty token of numeral characters; a comma, a letter or a space makes `float` fail. |
| Decimal.ParseRenderInt | GMAG.py:31 | An integer written in decimal reads back as the same value. |
| Decimal.ParsePointed | GMAG.py:31 | Digits, a point and digits (at least one digit in all) read as the integer part plus the fraction the digits after the point denote. |
| Decimal.ParseNegated | GMAG.py:31 | A leading minus sign negates the value of any unsigned token that reads. |
| Decimal.ParseScaled | GMAG.py:31 | A mantissa followed by `e` and a written integer exponent reads as the mantissa times ten to that power. |
| Decimal.ExponentReadBack | GMAG.py:31 | Every integer written in decimal reads back as the same exponent. |
| Loader.ParseLine | GMAG.py:25-34 | A line yields a row exactly when it is not blank or a header, has at least three tokens and its first three tokens read as numbers; the row holds those three numbers, in that order. |
| Loader.WordLine | GMAG.py:25-34 | For a line written as words: it is skipped exactly when it has no word or its first word starts with `Filename:` or `#`; fewer than three words give no row; words after the third play no part. |
| Loader.ParseLinesEmpty | GMAG.py:24-37 | No row is read exactly when no line yields one, which is when loading fails. |
| Loader.ParseLineCommaInsensitive | GMAG.py:31 | Turning every comma of a line into a point does not change the row it yields. |
| Loader.ParseWrittenLine | GMAG.py:24-34 | A line of three written integers, followed by any tokens, is read back as exactly that row. |
| Loader.ParseLinesAppend | GMAG.py:24-34 | Lines are read independently and in file order. |
| Loader.ParseLinesSound | GMAG.py:24-34 | Every loaded row comes from some line of the file. |
| Loader.ParseLinesComplete | GMAG.py:24-34 | Every line that yields a row contributes that row. |
| Loader.Unique | GMAG.py:40 | `np.unique` gives the same values, ascending and without repeats. |
| Loader.Load | GMAG.py:36-40 | Loading fails exactly when no line yields a row. Otherwise the angle list is non-empty, strictly ascending, and holds exactly the angles that occur in the rows. |
| Loader.Select | GMAG.py:64-69 | Selection fails exactly when the angle is absent. Otherwise x and y have equal length, one point per occurrence of the angle, and the i-th pair is the field and signal of the i-th matching row in file order. |
| Loader.MatchingCount | GMAG.py:64 | As many rows are selected as the angle occurs in the angle column. |
| Loader.MatchingAppend | GMAG.py:64-66 | Selection keeps file order: selecting from two blocks of rows gives the first block's points, then the second's. |
| Loader.LoadedAnglesSelectable | GMAG.py:36-69 | Every angle the loader reports selects at least one point. |
| Lineshape.Denominator | GMAG.py:55 | The denominator of `modelo` is never negative, and is zero exactly at x = Hr1 with zero width. |
| Lineshape.ResidualsZero | GMAG.py:48-58 | Every residual is zero exactly when the observations are the model's predictions. |
| Lineshape.PeakOdd | GMAG.py:55 | The resonance term is antisymmetric about Hr1. |
| Lineshape.PeakSign | GMAG.py:55 | The resonance term has the sign of c(x - Hr1), and is zero exactly when c is zero or x = Hr1. |
| Lineshape.Lorentz | GMAG.py:209-213 | For m >= 0 the asymmetric Lorentzian lies between -\|n\|/2 and m + \|n\|/2 at every x. |
| Lineshape.LorentzAtResonance | GMAG.py:209-213 | At x = Hr the Lorentzian equals its amplitude m, whatever n is. |
| Lineshape.AbsorptionBounded | GMAG.py:211 | For m >= 0 the symmetric part lies between 0 and m. |
| Lineshape.DispersionOdd | GMAG.py:212 | The antisymmetric part is odd about Hr. |
| Lineshape.DispersionBounded | GMAG.py:212 | The antisymmetric part never exceeds \|n\|/2 in magnitude. |
| Fitting.ReadParams | GMAG.py:50-54 | Reading a seed succeeds exactly when all of Hr1, dH1, a, b, c are present. Otherwise the error names the first missing one in that order. |
| Fitting.ReadStoredParams | GMAG.py:92-98 | A stored parameter dictionary reads back as the fitted parameters. |
| Fitting.ReadParamsIgnoresExtra | GMAG.py:71-73 | Extra seed entries such as d, Hr2 and dH2 make no difference to the fit's starting values. |
| Fitting.Attempt | GMAG.py:60-85 | An absent angle fails with no data, and a missing name fails as a missing parameter. Otherwise the fit succeeds exactly when the optimiser, given the angle's points, the seed and the bounds 900-950 and 0-100, returns parameters, which are the ones kept. |
| Fitting.AttemptSelects | GMAG.py:64-66 | A stored entry holds exactly the angle's points, in file order, and at least one. |
| Fitting.Record | GMAG.py:84-99 | A failed fit leaves the store as it was. A successful one adds or replaces the entry of its angle and changes no other entry. |
| Fitting.FitAngle | GMAG.py:60-105 | `ajustar_angulo` fails exactly when its attempt fails, with that error. On success only its angle's entry is added or replaced, and it holds the attempt's result. |
| Sweep.Chain | GMAG.py:946-955 | The chain fits the angles in the given order, one link per fitted angle, and stops before the end exactly when a fit failed. |
| Sweep.ChainSeeds | GMAG.py:946-955 | The first angle starts from the given seed, and every later one from the parameters fitted just before it. |
| Sweep.ChainFits | GMAG.py:950 | Every link is the fit of its angle from its seed. |
| Sweep.ChainFailure | GMAG.py:950 | A chain that stopped did so on the first angle it could not fit, from the seed it had reached. |
| Sweep.ChainStore | GMAG.py:84-99 | Over ascending distinct angles, the store gains exactly the fitted angles, each holding its own fit, and every other entry is untouched. |
| Sweep.ChainOrder | app.py:346-367 | A completed chain fitted its first angle from the initial seed and each later angle from the previous link's parameters. |
| Sweep.ChainCovers | GMAG.py:946 | A completed chain has fitted every one of its angles. |
| Sweep.ChainLinked | GMAG.py:946-955 | Every angle after a fitted one holds the fit that started from the stored parameters of the angle before it. |
| Sweep.ChoiceIgnoresPadding | GMAG.py:903 | Whitespace around a menu answer is irrelevant. |
| Sweep.AnswerChoice | GMAG.py:903-913 | The answers '1' to '4', after stripping, are the four menu entries. |
| Sweep.ReuseRefitsFromPrevious | GMAG.py:905-906 | After a fit, '1' refits the smallest angle from the parameters it already holds. |
| Sweep.MenuEnds | GMAG.py:897-917 | After a fit, off-menu answers are skipped: '3' then proceeds to the sweep and '4' quits, each with nothing changed, and the loop stops for want of input when nothing else follows. |
| Sweep.RefitThenFinish | GMAG.py:905-925 | After a fit, '1' or '2' and then '3' refits the smallest angle (from the previous parameters or from the typed seed) and proceeds with that fit alone stored; a failed refit stops the loop with its error and nothing changed. |
| Sweep.FirstFitThenFinish | GMAG.py:916-925 | The typed seed is fitted first; '3' next proceeds with that fit alone stored, and a failed fit stops the loop with its error and nothing stored. |
| Sweep.BootStep | GMAG.py:893-943 | One pass keeps the loop's invariant: before a fit nothing is stored, and afterwards only the smallest angle is, holding the previous parameters. Leaving the loop requires a previous fit. |
| Sweep.FitFirst | GMAG.py:920-925 | A fit of the smallest angle either fails with the attempt's error and changes nothing, or makes its parameters the previous ones. |
| Sweep.Bootstrap | GMAG.py:893-943 | The whole loop keeps the invariant, and it proceeds to the other angles only after a fit. |
| Sweep.RetryIgnored | GMAG.py:913-915 | After a fit, an answer outside the menu leaves the outcome of the whole loop unchanged. |
| Sweep.FirstPassIgnoresAnswer | GMAG.py:916-917 | Before the first fit the menu is not shown, so the answer has no effect. |
| Sweep.Sweep | GMAG.py:879-955 | The sweep never fails to load. It stores fits only for the file's angles, and only for the smallest one when the user quits or the answers run out. |
| Sweep.ChainKeys | GMAG.py:946-955 | A chain adds to the store exactly the angles it fitted, all taken from its angle list. |
| Sweep.Fmr | GMAG.py:862-955 | `FMR` stops with a load error exactly when the file has no numeric row, and then has stored nothing. |
| Sweep.SweepCompleted | GMAG.py:879-955 | A completed sweep has stored a fit for every angle of the file and for no other. |
| Sweep.SweepSeedChain | GMAG.py:879-955 | In a completed sweep every angle after the smallest holds the fit started from the parameters stored for the angle before it. |
| Sweep.FmrCompleted | GMAG.py:862-955 | A completed `FMR` run loaded the file and stored exactly its angles. |
| Sweep.FmrSeedChain | GMAG.py:862-955 | In a completed `FMR` run the stored fits form the seed chain over the file's ascending angles. |
| Sweep.FmrAsWritten | GMAG.py:893-936 | As written, `FMR` never completes and never reaches the menu's exit: it ends at the first fit. A load error gives the same as the intended run. |
| Sweep.FmrAsWrittenStopsAtFirstFit | GMAG.py:916-936 | As written, a successful first fit ends the run with the missing `Hr2` key and that fit alone stored; a failed one ends it as the intended run does. |
| Sweep.FmrDiscrepancy | GMAG.py:916-936 | For a file of one angle whose first fit converges, answered '3', the intended run completes and the written one stops on the missing `Hr2` key. |
| App.InitialSeed | app.py:338-343 | No or empty parameters give the default seed; any other parameters are used as given. |
| App.DefaultSeedReadable | app.py:338-343 | The default seed starts the fit at a = 1, b = 0, c = 1, Hr1 = 1000, dH1 = 50. |
| App.GuardAsWritten | app.py:316-317 | As written, the guard passes exactly a single non-zero angle, and raises the ambiguous-truth error on two or more. |
| App.Guard | app.py:316-317 | The angle guard fails, with the no-angles error, exactly when there is no angle. |
| App.ProcessFmr | app.py:294-458 | A missing file and an empty file give their errors. A success reports the file's angles, ascending, with one parameter set per angle. |
| App.ProcessFmrSucceeds | app.py:336-460 | The analysis succeeds whenever the file loads, the initial seed holds every name the fit reads and the optimiser converges. |
| App.ProcessFmrFitFailure | app.py:346-366 | A failed fit reports the error of an attempt at one of the file's angles. |
| App.ProcessFmrAsWritten | app.py:306-352 | As written, the analysis never succeeds: two or more angles fail at the guard, and a single angle fails at its fit or at the `mostrar=` plot call. |
| App.ProcessFmrDiscrepancy | app.py:346-352 | For a file of one non-zero angle whose fit converges, the intended analysis succeeds and the written one fails at the plot call. |
| App.ProcessFmrSeedChain | app.py:320-380 | The reported parameters form the seed chain: the i-th set is the fit of the i-th angle started from the (i-1)-th set, or from the initial seed for the first. |
| App.ProcessFmrNeverLacksData | app.py:346-366 | A failed analysis never failed for want of points at an angle. |
| App.DefaultSeedNeverMissing | app.py:338-366 | Started from the default seed, the analysis never fails for a missing parameter. |
| App.MessageDistinguishes | app.py:454-468 | The message alone tells success from failure. |
| App.DetailIdentifies | app.py:460-468 | Two errors with the same text are the same error, down to the missing path and the missing parameter's name; only two angles without points share a text. |
| App.MessageIdentifies | app.py:454-468 | Two envelopes with the same message agree on success and, for errors, on the error (up to the angle of an angle without points). |
| Stats.Max | GMAG.py:640 | `max` is a value of the column, and no value exceeds it. |
| Stats.Min | GMAG.py:640 | `min` is a value of the column, and no value is below it. |
| Stats.Normalize | GMAG.py:640 | Normalisation fails exactly on an empty column or on one whose values are all equal. Otherwise it keeps the length and maps every value into [-1, 1]. |
| Stats.NormalizeExtremes | GMAG.py:640 | Exactly the minimum values become -1, and exactly the maximum values become 1. |
| Stats.NormalizeOrder | GMAG.py:640 | Normalisation keeps the order and the equality of any two values. |
| Stats.NormalizeIdempotent | GMAG.py:640 | A normalised column normalises to itself. |
| Stats.MeanCenter | GMAG.py:820-821 | Centring keeps the length and every difference between two values. |
| Stats.MeanCenterSumZero | GMAG.py:820-821 | A centred column sums to zero. |
| Stats.MeanCenterIdempotent | GMAG.py:820-821 | Centring a centred column changes nothing. |
| Hysteresis.NearestToZero | GMAG.py:226-257 | An empty vector fails with the empty-vector error; any other gives one of its positions. |
| Hysteresis.NearestToZeroExact | GMAG.py:245-257 | With tolerance 0 the position holds a value of least magnitude. Among those it is the last positive one if there is a positive one, and otherwise the first. |
| Hysteresis.NearestExactUnique | GMAG.py:249-255 | Those conditions determine a single position. |
| Hysteresis.MeanAbs | GMAG.py:266 | The mean of two magnitudes lies between 0 and the column's largest magnitude, and is 0 exactly when both values are 0. |
| Hysteresis.RemanenceAsWritten | GMAG.py:259-268 | As written, remanence fails on fewer than two field points. On a magnetisation column at least as long it succeeds, with a value between 0 and the largest magnitude. |
| Hysteresis.CoercivityAsWritten | GMAG.py:270-280 | As written, coercivity has the same bounds, with the roles of the columns swapped. |
| Hysteresis.Remanence | GMAG.py:259-268 | The corrected remanence keeps the same failure and bounds. |
| Hysteresis.Coercivity | GMAG.py:270-280 | The corrected coercivity keeps the same failure and bounds. |
| Hysteresis.MeanAtZerosCrossings | GMAG.py:259-280 | With tolerance 0 the corrected reading averages the read column at the exact nearest-to-zero position of each half of the probed column. |
| Hysteresis.RemanenceDiscrepancy | GMAG.py:265-266 | On field [1, 2, 0, 3] and magnetisation [1, 0, 5, 0] the code gives 1 where the halves' crossings give 3. |
| Hysteresis.CoercivityDiscrepancy | GMAG.py:277-278 | The same loop with the columns swapped shows the same difference for coercivity. |
| Hysteresis.AnalyseLoop | GMAG.py:635-642 | An empty magnetisation column is skipped and a flat one cannot be normalised. Otherwise remanence lies in [0, 1] and coercivity between 0 and the largest field magnitude. |
| Hysteresis.AnalyseLoopSucceeds | GMAG.py:635-642 | Every loop of at least two points that is not flat is analysed. |
| Hysteresis.StripEmuHeader | GMAG.py:600-605 | The file is skipped exactly when "(emu)" occurs nowhere. Otherwise the text after its first occurrence is kept. |
| Hysteresis.StripEmuHeaderRoundTrip | GMAG.py:600-602 | A label-free header, the label and then any data strips to exactly that data. |
| Impedance.CommasToSpaces | GMAG.py:219 | Every comma becomes a space and every other character is kept in place. |
| Impedance.CommaLineSplits | GMAG.py:219 | A comma-separated line of fields splits, after the replacement, into exactly its fields. |
| Impedance.FitWindow | GMAG.py:361-363 | The window is the suffix strictly after the middle point, (n - 1) / 2 points long. |
| Impedance.ArgMax | GMAG.py:366 | `argmax` gives the first position of the largest value. |
| Impedance.InitialGuess | GMAG.py:361-368 | The guesses fail exactly when the impedance column has fewer than three points (equal columns never fail otherwise). Success gives the following guesses. The amplitude is the window's maximum and n = 0. Hr is a field of the window, within its range. dH is a tenth of the window's field range. |
| Impedance.InitialGuessAtPeak | GMAG.py:361-368 | On equal columns Hr and m are the field and the impedance at the first impedance peak after the middle. |
| Electromagnet.CommasToPoints | GMAG.py:178-179 | Each field keeps its length; every comma becomes a point and every other character is kept. |
| Electromagnet.Columns | GMAG.py:805-811 | The two columns have equal length, at most one entry per line, and hold words. |
| Electromagnet.ColumnsFromLines | GMAG.py:807-811 | The i-th entries of the two columns are the first and second fields of one line of at least two fields. |
| Electromagnet.ColumnsWritten | GMAG.py:807-811 | A line written as words contributes its first two words when it has at least two, and nothing otherwise. |
| Electromagnet.ColumnsAppend | GMAG.py:807-811 | Lines contribute independently and in file order. |
| Electromagnet.ParseColumn | GMAG.py:818-819 | A column converts exactly when every field is a number, and then value by value. |
| Electromagnet.Calibrate | GMAG.py:805-826 | A file is used exactly when both columns convert. The field values are the first column's fields read with points for commas; each voltage is the second column's value less that column's mean, so the voltages sum to zero. |
| Electromagnet.CalibrateShifts | GMAG.py:820-821 | The centred voltage differs from the measured one by a constant. |
| Electromagnet.CalibrateCommaInsensitive | GMAG.py:813-815 | A file written with decimal commas calibrates exactly like the same file written with points. |

## Left out

- The least-squares optimisers are not modelled. These are lmfit's `Minimizer.minimize` for the FMR fits, `Model.fit` for the impedance fits and scipy's `curve_fit`. They are foreign numerical code. The FMR fit is a function parameter, and the bounds 900-950 and 0-100 are only passed to it, not enforced.
- File and directory I/O is left out: `open`, `os.path.exists`, `os.makedirs`, `os.listdir` loops, temporary files, the JSON report, figures and `savefig`, logging and printing. Files enter as lines or text; `App.ProcessFmr` takes a missing path as `None`.
- Console input is modelled only as data. `input()` answers and the seeds typed at `obter_parametros_iniciais` arrive as turns. Answer '4' calls `exit()`, which is modelled as the loop quitting.
- Floating-point rounding and NaN/infinity are left out. Values are exact reals, so a division by zero is excluded by a precondition (`Lineshape.Defined`) or reported as an error (`Stats.NormError.ZeroRange`).
- Decimal.Parse: only signs, ASCII digits, one point and an exponent are accepted. Python's `float` also accepts the other Unicode decimal digits. It also accepts surrounding whitespace, `_` digit separators, `inf` and `nan`, and none of these is modelled. Tokens from `split()` carry no whitespace.
- Hysteresis.NearestToZero: for a tolerance above 0 only the index bound is stated. With ties inside the tolerance the running best distance can creep upward, so minimality is proved only for tolerance 0.
- As written, both FMR drivers stop at their first fit (see Findings), so the menu, the chain and success are never reached. `Sweep.FmrAsWritten` and `App.ProcessFmrAsWritten` model that behaviour. `Sweep.Fmr`, `App.ProcessFmr` and the members about them model the evidently intended run: the `prev.Some?` branch of `Sweep.BootStep`, `Sweep.MenuEnds`, `Sweep.RefitThenFinish`, `Sweep.RetryIgnored`, `Sweep.SweepCompleted`, `Sweep.FmrSeedChain` and the `Ok` result of `App.ProcessFmr`.
- The intended run treats every later crash site as fixed and carries on with the next fit. These sites are:
  - GMAG.py:961-965 read `Hr2`, `dH2` and `d` on every later angle; the stored parameters hold none of them, as at GMAG.py:931.
  - GMAG.py:936 and GMAG.py:968 pass `mostrar=` to `plotar_angulo`, as app.py:350 does.
  - app.py:370 passes `mostrar=` again for every later angle.
  - app.py:391-395 read `Hr2`, `dH2` and `d` for the summary figure.
  - `plotar_angulo` (GMAG.py:107-131, app.py:109-132) and `plotar_comparacao` (app.py:134-153) return nothing. So `fig.savefig` on their result would raise AttributeError at GMAG.py:941, GMAG.py:970, app.py:353, app.py:373 and app.py:440, even without the `mostrar=` keyword.
  The figures and the summary are not modelled past the fits.
- Sweep.Fmr: a missing path, which `FMR` reports and returns from (GMAG.py:864-866), is not modelled; `Fmr` starts from the file's lines.
- Sweep.Turn: a typed seed is the dictionary `obter_parametros_iniciais` returns. A non-numeric answer raises ValueError there (GMAG.py:287-294), which ends `FMR` at GMAG.py:1017; that path is not modelled.
- Hysteresis.AnalyseLoop: uses the corrected `Remanence` and `Coercivity`, where GMAG.py:641-642 call the written ones. On field [1, 2, 0, 3] and moment [1, 0, 5, 0] the code's values differ from the model's, as `Hysteresis.RemanenceDiscrepancy` and `Hysteresis.CoercivityDiscrepancy` show.
- The second `except` of the hysteresis driver (GMAG.py:574) is unreachable and is not modelled.
- App.Detail: the no-data message leaves out the formatted angle, and the text of a missing-parameter error is given as Python prints a `KeyError`.
- Transcendental formulas are left out because they need irrational functions: `frequencia_de_ressonancia` (square root), `largura_de_linha`, the DRX thickness (sine and pi) and the `np.linspace` grids.
- The hysteresis driver's `float` conversion of its columns (GMAG.py:631-632) has no error handling in the code; the model starts from the converted columns.
- The web application's other entry points, the eel/tkinter dialogs, configuration persistence and start-up are user-interface glue.

## Findings

| source | as written | input that shows it | evidently intended | confidence | as-written member | corrected member |
|---|---|---|---|---|---|---|
| GMAG.py:265-266 | the second-half position from `encontrar_posicao_mais_proxima_de_zero` indexes `y` from its start | field [1, 2, 0, 3], magnetisation [1, 0, 5, 0]: gives 1 | index `y` at `len(x)//2 + position`: gives 3 | not executed | Hysteresis.RemanenceAsWritten | Hysteresis.Remanence |
| GMAG.py:277-278 | the same for coercitividade: the second-half position indexes `x` from its start | magnetisation [1, 2, 0, 3], field [1, 0, 5, 0]: gives 1 | index `x` at `len(y)//2 + position`: gives 3 | not executed | Hysteresis.CoercivityAsWritten | Hysteresis.Coercivity |
| GMAG.py:931 | after the first fit the loop reads `Hr2` from the stored parameters, which hold only a, b, c, Hr1 and dH1 | any file whose first fit converges: KeyError 'Hr2', caught at GMAG.py:1017 | collect only the fitted names, then show the menu; the corrected member also takes the same reads at GMAG.py:961-965 and the `mostrar=` calls at GMAG.py:936 and GMAG.py:968 as fixed, and `plotar_angulo` returning its figure for `savefig` at GMAG.py:941 and GMAG.py:970 | not executed | Sweep.FmrAsWritten | Sweep.Fmr |
| app.py:350 | `plotar_angulo(primeiro_angulo, mostrar=False)` passes a keyword the method (app.py:109) does not take | a file of one non-zero angle whose fit converges: TypeError, caught at app.py:460 | plot without the keyword; the corrected member also takes the same call at app.py:370 as fixed, and `plotar_angulo` and `plotar_comparacao` returning their figures for `savefig` at app.py:353, app.py:373 and app.py:440 | not executed | App.ProcessFmrAsWritten | App.ProcessFmr |
| app.py:316 | `not angulos` on a numpy array raises for two or more angles and is true for the single angle 0 | a file with angles 0 and 45: ValueError about an ambiguous truth value | fail only when there is no angle | not executed | App.GuardAsWritten | App.Guard |

The discrepancy lemmas `Hysteresis.RemanenceDiscrepancy`,
`Hysteresis.CoercivityDiscrepancy`, `App.GuardDiscrepancy` and
`App.GuardAsWrittenRejectsLoaded`, `Sweep.FmrDiscrepancy` and
`App.ProcessFmrDiscrepancy` exhibit these inputs. `Hysteresis.AnalyseLoop`,
`Sweep.Fmr` and `App.ProcessFmr` use the corrected members.

=== FILE: app.dfy ===
/** The FMR analysis behind the graphical interface (`processar_fmr` of the
    web application): the file is loaded, every angle is fitted in ascending
    order without any console loop (the first from the caller's parameters
    or a fixed default, each later one from the fit before it), and the
    outcome is wrapped in a success or error envelope. Figures, the JSON
    report file and the logger are not modelled. */
module App {
  import opened Fallible
  import opened Text
  import opened Loader
  import opened Lineshape
  import opened Fitting
  import Sweep

  /** The parameters used when the caller gives none. */
  const DefaultSeed: Seed := map[
    "a" := 1.0, "b" := 0.0, "c" := 1.0, "d" := 0.8,
    "Hr1" := 1000.0, "dH1" := 50.0, "Hr2" := 1200.0, "dH2" := 50.0]

  /** `if not parametros_iniciais`: a missing or empty dictionary is
      replaced by the default. */
  function InitialSeed(given: Option<Seed>): (s: Seed)
    ensures given.None? ==> s == DefaultSeed
    ensures given.Some? ==> (s == DefaultSeed <==> given.value == map[] || given.value == DefaultSeed)
    ensures given.Some? && given.value != map[] ==> s == given.value
  {
    if given.None? || given.value == map[] then DefaultSeed else given.value
  }

  /** The default seed holds every name the fit reads, so the first fit
      starts from a = 1, b = 0, c = 1, Hr1 = 1000, dH1 = 50. */
  lemma DefaultSeedReadable()
    ensures ReadParams(DefaultSeed) == Success(Params(1.0, 0.0, 1.0, 1000.0, 50.0))
  {
    assert "Hr1" in DefaultSeed && "dH1" in DefaultSeed;
    assert "a" in DefaultSeed && "b" in DefaultSeed && "c" in DefaultSeed;
  }

  datatype AppError =
    | FileNotFound(path: string)   // the path does not exist
    | LoadFailed(loadError: LoadError)
    | NoAngles                     // the angle guard raised ValueError
    | AmbiguousTruth               // numpy refused `not` on a longer array
    | FitFailed(fitError: FitError)
    | PlotCallFailed               // `plotar_angulo` has no `mostrar` parameter

  /** `resultados['angulos']` and `resultados['parametros']`. */
  datatype Report = Report(angles: seq<real>, params: seq<Params>)

  datatype Envelope = Ok(report: Report) | Err(error: AppError)

  // ---------------------------------------------------------------------
  // The angle guard.

  /** The guard as the code writes it: `not angulos or len(angulos) == 0` on
      a numpy array. `not` of an empty array is true, of a one-element array
      is the negated truth of that element, and of a longer array raises. */
  function GuardAsWritten(angles: seq<real>): (r: Result<(), AppError>)
    ensures r.Success? <==> |angles| == 1 && angles[0] != 0.0
    ensures |angles| >= 2 ==> r == Failure(AmbiguousTruth)
  {
    if |angles| == 0 then Failure(NoAngles)
    else if |angles| == 1 then
      if angles[0] == 0.0 then Failure(NoAngles) else Success(())
    else Failure(AmbiguousTruth)
  }

  /** The guard as its message states it: fail only when there is no
      angle. */
  function Guard(angles: seq<real>): (r: Result<(), AppError>)
    ensures r.Success? <==> angles != []
    ensures r.Failure? ==> r.error == NoAngles
  {
    if angles == [] then Failure(NoAngles) else Success(())
  }

  /** A measurement at 0 and 45 degrees passes the intended guard but is
      rejected by the written one. */
  lemma GuardDiscrepancy()
    ensures Guard([0.0, 45.0]).Success?
    ensures GuardAsWritten([0.0, 45.0]) == Failure(AmbiguousTruth)
    ensures GuardAsWritten([0.0]) == Failure(NoAngles)
  {
  }

  /** The written guard rejects every file with more than one angle, and a
      file whose only angle is 0. */
  lemma GuardAsWrittenRejectsLoaded(lines: seq<string>)
    requires Load(lines).Success?
    ensures var angles := Load(lines).value.angles;
      GuardAsWritten(angles).Failure? <==> |angles| >= 2 || angles == [0.0]
  {
  }

  // ---------------------------------------------------------------------
  // The analysis.

  /** The fitted parameters of a chain's links, in order. */
  function ParamsOf(links: seq<Sweep.Link>): (ps: seq<Params>)
    ensures |ps| == |links|
    ensures forall i :: 0 <= i < |links| ==> ps[i] == links[i].entry.params
  {
    seq(|links|, i requires 0 <= i < |links| => links[i].entry.params)
  }

  /** `processar_fmr`. `file` is the file's lines, or `None` when the path
      does not exist. */
  function ProcessFmr(path: string, file: Option<seq<string>>, given: Option<Seed>, fit: Optimizer): (r: Envelope)
    ensures file.None? ==> r == Err(FileNotFound(path))
    ensures file.Some? && Load(file.value).Failure? ==> r == Err(LoadFailed(NoNumericData))
    ensures r.Ok? ==>
      && file.Some? && Load(file.value).Success?
      && r.report.angles == Load(file.value).value.angles
      && StrictlyIncreasing(r.report.angles)
      && |r.report.params| == |r.report.angles|
  {
    match file
    case None => Err(FileNotFound(path))
    case Some(lines) =>
      match Load(lines)
      case Failure(e) => Err(LoadFailed(e))
      case Success(ds) =>
        match Guard(ds.angles)
        case Failure(e) => Err(e)
        case Success(_) =>
          var run := Sweep.Chain(AttemptOn(ds.rows, fit), ds.angles, InitialSeed(given), map[]);
          if run.failure.Some? then Err(FitFailed(run.failure.value))
          else Ok(Report(ds.angles, ParamsOf(run.links)))
  }

  /** The report's parameters form the seed chain: the first angle is fitted
      from the initial seed, every later one from the parameters reported
      for the angle before it. */
  lemma ProcessFmrSeedChain(path: string, lines: seq<string>, given: Option<Seed>, fit: Optimizer)
    requires ProcessFmr(path, Some(lines), given, fit).Ok?
    ensures var ds, rep := Load(lines).value, ProcessFmr(path, Some(lines), given, fit).report;
      && Attempt(ds.rows, rep.angles[0], InitialSeed(given), fit).Success?
      && Attempt(ds.rows, rep.angles[0], InitialSeed(given), fit).value.params == rep.params[0]
      && forall i :: 1 <= i < |rep.angles| ==>
           && Attempt(ds.rows, rep.angles[i], AsSeed(rep.params[i - 1]), fit).Success?
           && Attempt(ds.rows, rep.angles[i], AsSeed(rep.params[i - 1]), fit).value.params == rep.params[i]
  {
    var ds := Load(lines).value;
    var attempt := AttemptOn(ds.rows, fit);
    var run := Sweep.Chain(attempt, ds.angles, InitialSeed(given), map[]);
    var ps := ParamsOf(run.links);
    assert ProcessFmr(path, Some(lines), given, fit) == Ok(Report(ds.angles, ps));
    Sweep.ChainOrder(attempt, ds.angles, InitialSeed(given), map[]);
    forall i | 1 <= i < |ds.angles|
      ensures Attempt(ds.rows, ds.angles[i], AsSeed(ps[i - 1]), fit) == Success(run.links[i].entry)
    {
      assert attempt(ds.angles[i], AsSeed(run.links[i - 1].entry.params)) == Success(run.links[i].entry);
    }
  }

  /** Every angle of the report comes from the file, so the analysis never
      fails for want of points at an angle: a failed fit is a missing
      parameter or a fit that did not converge. */
  lemma ProcessFmrNeverLacksData(path: string, lines: seq<string>, given: Option<Seed>, fit: Optimizer)
    requires ProcessFmr(path, Some(lines), given, fit).Err?
    requires ProcessFmr(path, Some(lines), given, fit).error.FitFailed?
    ensures !ProcessFmr(path, Some(lines), given, fit).error.fitError.NoData?
  {
    var ds := Load(lines).value;
    var seed := InitialSeed(given);
    var run := Sweep.Chain(AttemptOn(ds.rows, fit), ds.angles, seed, map[]);
    Sweep.ChainFailure(AttemptOn(ds.rows, fit), ds.angles, seed, map[]);
    var k := |run.links|;
    var sk := Sweep.Reached(seed, run.links);
    assert ds.angles[k] in Angles(ds.rows) by {
      assert ds.angles[k] in ds.angles;
    }
    AttemptWithData(ds.rows, ds.angles[k], sk, fit);
  }

  /** With the default seed (no or empty parameters) the analysis never
      fails for a missing parameter. */
  lemma DefaultSeedNeverMissing(path: string, lines: seq<string>, fit: Optimizer)
    requires ProcessFmr(path, Some(lines), None, fit).Err?
    requires ProcessFmr(path, Some(lines), None, fit).error.FitFailed?
    ensures !ProcessFmr(path, Some(lines), None, fit).error.fitError.MissingParameter?
  {
    var ds := Load(lines).value;
    var run := Sweep.Chain(AttemptOn(ds.rows, fit), ds.angles, DefaultSeed, map[]);
    assert ProcessFmr(path, Some(lines), None, fit) == Err(FitFailed(run.failure.value));
    Sweep.ChainFailure(AttemptOn(ds.rows, fit), ds.angles, DefaultSeed, map[]);
    var k := |run.links|;
    var sk := Sweep.Reached(DefaultSeed, run.links);
    assert ReadParams(sk).Success? by {
      if k == 0 {
        DefaultSeedReadable();
      } else {
        ReadStoredParams(run.links[k - 1].entry.params);
      }
    }
    AttemptWithCompleteSeed(ds.rows, ds.angles[k], sk, fit);
  }

  /** The analysis succeeds whenever the file loads, the initial seed holds
      every name the fit reads and the optimiser converges: every angle of
      the file is then fitted. */
  lemma ProcessFmrSucceeds(path: string, lines: seq<string>, given: Option<Seed>, fit: Optimizer)
    requires Load(lines).Success?
    requires ReadParams(InitialSeed(given)).Success?
    requires forall pr :: fit(pr).Some?
    ensures ProcessFmr(path, Some(lines), given, fit).Ok?
  {
    var ds := Load(lines).value;
    var seed := InitialSeed(given);
    var attempt := AttemptOn(ds.rows, fit);
    var run := Sweep.Chain(attempt, ds.angles, seed, map[]);
    if run.failure.Some? {
      Sweep.ChainFailure(attempt, ds.angles, seed, map[]);
      var k := |run.links|;
      var sk := Sweep.Reached(seed, run.links);
      assert ds.angles[k] in Angles(ds.rows) by {
        assert ds.angles[k] in ds.angles;
      }
      assert ReadParams(sk).Success? by {
        if k > 0 {
          ReadStoredParams(run.links[k - 1].entry.params);
        }
      }
      assert false;
    }
  }

  /** A failed fit reports the error of an attempt at one of the file's
      angles. */
  lemma ProcessFmrFitFailure(path: string, lines: seq<string>, given: Option<Seed>, fit: Optimizer, e: FitError)
    requires ProcessFmr(path, Some(lines), given, fit) == Err(FitFailed(e))
    ensures Load(lines).Success?
    ensures var ds := Load(lines).value;
      exists k, s :: 0 <= k < |ds.angles| && Attempt(ds.rows, ds.angles[k], s, fit) == Failure(e)
  {
    var ds := Load(lines).value;
    var seed := InitialSeed(given);
    var attempt := AttemptOn(ds.rows, fit);
    Sweep.ChainFailure(attempt, ds.angles, seed, map[]);
    var run := Sweep.Chain(attempt, ds.angles, seed, map[]);
    var k := |run.links|;
    var sk := Sweep.Reached(seed, run.links);
    assert Attempt(ds.rows, ds.angles[k], sk, fit) == Failure(e);
  }

  /** `processar_fmr` as written: after the guard it fits the first angle
      and then calls `plotar_angulo(..., mostrar=False)`, which takes no such
      keyword and raises TypeError. It therefore ends there, with the fit's
      error or with that TypeError. */
  function ProcessFmrAsWritten(path: string, file: Option<seq<string>>, given: Option<Seed>, fit: Optimizer): (r: Envelope)
    ensures r.Err?
    ensures file.None? ==> r == Err(FileNotFound(path))
    ensures file.Some? && Load(file.value).Failure? ==> r == Err(LoadFailed(NoNumericData))
    ensures file.Some? && Load(file.value).Success? && |Load(file.value).value.angles| >= 2 ==>
      r == Err(AmbiguousTruth)
    ensures file.Some? && Load(file.value).Success? && Load(file.value).value.angles == [0.0] ==>
      r == Err(NoAngles)
  {
    match file
    case None => Err(FileNotFound(path))
    case Some(lines) =>
      match Load(lines)
      case Failure(e) => Err(LoadFailed(e))
      case Success(ds) =>
        match GuardAsWritten(ds.angles)
        case Failure(e) => Err(e)
        case Success(_) =>
          match Attempt(ds.rows, ds.angles[0], InitialSeed(given), fit)
          case Failure(e) => Err(FitFailed(e))
          case Success(_) => Err(PlotCallFailed)
  }

  /** A file with one non-zero angle whose fit converges: the intended
      analysis reports it, the written one fails at the plot call. */
  lemma ProcessFmrDiscrepancy(path: string, lines: seq<string>, given: Option<Seed>, fit: Optimizer)
    requires Load(lines).Success? && |Load(lines).value.angles| == 1 && Load(lines).value.angles[0] != 0.0
    requires ReadParams(InitialSeed(given)).Success?
    requires forall pr :: fit(pr).Some?
    ensures ProcessFmr(path, Some(lines), given, fit).Ok?
    ensures ProcessFmrAsWritten(path, Some(lines), given, fit) == Err(PlotCallFailed)
  {
    ProcessFmrSucceeds(path, lines, given, fit);
    var ds := Load(lines).value;
    assert ds.angles[0] in Angles(ds.rows) by {
      assert ds.angles[0] in ds.angles;
    }
  }

  // ---------------------------------------------------------------------
  // The envelope's message.

  const SuccessMessage: string := "Análise FMR concluída com sucesso"
  const ErrorPrefix: string := "Erro no processamento FMR: "

  /** `str(e)` of the exception behind an error. */
  function Detail(e: AppError): string {
    match e
    case FileNotFound(path) => "Arquivo não encontrado: " + path
    case LoadFailed(_) => "Nenhum dado numérico válido encontrado"
    case NoAngles => "Nenhum ângulo encontrado nos dados"
    case AmbiguousTruth =>
      "The truth value of an array with more " + "than one element is ambiguous. Use a.any() or a.all()"
    case FitFailed(NoData(_)) => "Nenhum dado encontrado para o ângulo "
    case FitFailed(MissingParameter(name)) => "'" + name + "'"
    case FitFailed(NotConverged) => "O ajuste não convergiu"
    case PlotCallFailed =>
      "AjustadorMultiplosAngulos." + "plotar_angulo() got an unexpected keyword argument 'mostrar'"
  }

  /** The error a detail text comes from, read off its characters: 0 for a
      missing file, 1 for a file without data, 2 for no angles, 3 for the
      ambiguous truth value, 4 for an angle without points, 5 for a missing
      parameter, 6 for a fit that did not converge, 7 for the plot call. */
  function KindOf(d: string): int {
    if |d| < 13 then 5
    else if d[0] == 'A' then (if d[1] == 'r' then 0 else 7)
    else if d[0] == 'T' then 3
    else if d[0] == 'O' then 6
    else if d[0] == 'N' then (if d[7] != 'd' then 2 else if d[12] == 'n' then 1 else 4)
    else 5
  }

  function Kind(e: AppError): int {
    match e
    case FileNotFound(_) => 0
    case LoadFailed(_) => 1
    case NoAngles => 2
    case AmbiguousTruth => 3
    case FitFailed(NoData(_)) => 4
    case FitFailed(MissingParameter(_)) => 5
    case FitFailed(NotConverged) => 6
    case PlotCallFailed => 7
  }

  lemma KindOfDetail(e: AppError)
    ensures KindOf(Detail(e)) == Kind(e)
  {
    var d := Detail(e);
    match e
    case FileNotFound(path) =>
      var p := "Arquivo não encontrado: ";
      assert p[0] == 'A' && p[1] == 'r' && |p| >= 13;
      assert d == p + path;
    case LoadFailed(_) =>
      assert d[0] == 'N' && d[7] == 'd' && d[12] == 'n';
    case NoAngles =>
      assert d[0] == 'N' && d[7] != 'd';
    case AmbiguousTruth =>
      assert d[0] == 'T';
    case FitFailed(NoData(_)) =>
      assert d[0] == 'N' && d[7] == 'd' && d[12] != 'n';
    case FitFailed(MissingParameter(name)) =>
      assert |d| < 13 || d[0] == '\'';
    case FitFailed(NotConverged) =>
      assert d[0] == 'O';
    case PlotCallFailed =>
      assert d[0] == 'A' && d[1] != 'r';
  }

  /** The detail text tells every error apart, down to the path of a
      missing file and the name of a missing parameter; only the angle of
      an angle without points is not written into it. */
  lemma DetailIdentifies(e1: AppError, e2: AppError)
    requires Detail(e1) == Detail(e2)
    ensures e1 == e2 || (e1.FitFailed? && e1.fitError.NoData? && e2.FitFailed? && e2.fitError.NoData?)
  {
    KindOfDetail(e1);
    KindOfDetail(e2);
    assert Kind(e1) == Kind(e2);
    var d := Detail(e1);
    if e1.FileNotFound? {
      var p := "Arquivo não encontrado: ";
      assert d == p + e1.path && d == p + e2.path;
      assert e1.path == d[|p|..] == e2.path;
    } else if e1.FitFailed? && e1.fitError.MissingParameter? {
      assert d == "'" + e1.fitError.name + "'" && d == "'" + e2.fitError.name + "'";
      assert e1.fitError.name == d[1..|d| - 1] == e2.fitError.name;
    }
  }


  /** The envelope's `message` field. */
  function Message(r: Envelope): (m: string)
    ensures r.Ok? ==> m == SuccessMessage
    ensures r.Err? ==> StartsWith(m, ErrorPrefix) && m[|ErrorPrefix|..] == Detail(r.error)
  {
    match r
    case Ok(_) => SuccessMessage
    case Err(e) => ErrorPrefix + Detail(e)
  }

  /** The message alone tells success from failure. */
  lemma MessageDistinguishes(r: Envelope)
    ensures StartsWith(Message(r), ErrorPrefix) <==> r.Err?
  {
    if r.Ok? {
      assert Message(r)[0] != ErrorPrefix[0];
    }
  }

  /** Two envelopes with the same message agree on success and, for an
      error, on the error itself (up to the angle of an angle without
      points). */
  lemma MessageIdentifies(r1: Envelope, r2: Envelope)
    requires Message(r1) == Message(r2)
    ensures r1.Ok? <==> r2.Ok?
    ensures r1.Err? ==> r1.error == r2.error || (r1.error.FitFailed? && r1.error.fitError.NoData?)
  {
    MessageDistinguishes(r1);
    MessageDistinguishes(r2);
    if r1.Err? {
      assert Detail(r1.error) == Message(r1)[|ErrorPrefix|..] == Detail(r2.error);
      DetailIdentifies(r1.error, r2.error);
    }
  }
}

=== FILE: decimal.dfy ===
/** The part of Python's `float(str)` that a measurement file exercises:
    an optional sign, decimal digits with at most one point and at least one
    digit, and an optional exponent `e`/`E` with an optional sign. Values are
    exact rationals; the binary rounding of a Python float is not modelled. */
module Decimal {
  import opened Fallible

  predicate IsDigit(c: char) {
    '0' <= c <= '9'
  }

  predicate AllDigits(s: string) {
    forall i :: 0 <= i < |s| ==> IsDigit(s[i])
  }

  /** The characters a numeral accepted by `Parse` is made of. */
  predicate IsNumeralChar(c: char) {
    IsDigit(c) || c == '.' || c == '+' || c == '-' || c == 'e' || c == 'E'
  }

  predicate AllNumeral(s: string) {
    forall i :: 0 <= i < |s| ==> IsNumeralChar(s[i])
  }

  lemma AllNumeralConcat(a: string, b: string)
    requires AllNumeral(a) && AllNumeral(b)
    ensures AllNumeral(a + b)
  {
  }

  function DigitValue(c: char): nat
    requires IsDigit(c)
  {
    (c as int) - ('0' as int)
  }

  /** The value of a string of decimal digits, most significant first. */
  function DigitsValue(s: string): nat
    requires AllDigits(s)
    decreases |s|
  {
    if s == [] then 0 else 10 * DigitsValue(s[..|s| - 1]) + DigitValue(s[|s| - 1])
  }

  function Pow10(n: nat): (p: nat)
    ensures p > 0
  {
    if n == 0 then 1 else 10 * Pow10(n - 1)
  }

  /** The first position holding `a` or `b`, or `|s|` when there is none. */
  function FirstOf(s: string, a: char, b: char): (k: nat)
    ensures k <= |s|
    ensures forall i :: 0 <= i < k ==> s[i] != a && s[i] != b
    ensures k < |s| ==> s[k] == a || s[k] == b
  {
    if s == [] then 0
    else if s[0] == a || s[0] == b then 0
    else 1 + FirstOf(s[1..], a, b)
  }

  /** The value of the digits after a decimal point. */
  function Fraction(fp: string): real
    requires AllDigits(fp)
  {
    DigitsValue(fp) as real / Pow10(|fp|) as real
  }

  /** `digits [ '.' digits ]` with at least one digit on either side. */
  function ParseMantissa(m: string): (r: Option<real>)
    ensures r.Some? ==> |m| > 0 && forall i :: 0 <= i < |m| ==> IsDigit(m[i]) || m[i] == '.'
  {
    var k := FirstOf(m, '.', '.');
    if k == |m| then
      if |m| > 0 && AllDigits(m) then Some(DigitsValue(m) as real) else None
    else
      var ip, fp := m[..k], m[k + 1..];
      if AllDigits(ip) && AllDigits(fp) && |ip| + |fp| > 0 then
        assert forall i :: k < i < |m| ==> m[i] == fp[i - k - 1];
        Some(DigitsValue(ip) as real + Fraction(fp))
      else
        None
  }

  /** `[ '+' | '-' ] digits` after the exponent marker. */
  function ParseExponent(e: string): (r: Option<int>)
    ensures r.Some? ==> |e| > 0 && forall i :: 0 <= i < |e| ==> IsDigit(e[i]) || e[i] == '+' || e[i] == '-'
  {
    if |e| > 0 && (e[0] == '+' || e[0] == '-') then
      if |e| > 1 && AllDigits(e[1..]) then
        assert forall i :: 1 <= i < |e| ==> e[i] == e[1..][i - 1];
        Some(if e[0] == '-' then -(DigitsValue(e[1..]) as int) else DigitsValue(e[1..]))
      else
        None
    else if |e| > 0 && AllDigits(e) then
      Some(DigitsValue(e))
    else
      None
  }

  /** `m * 10^x` for a signed exponent. */
  function Scale(m: real, x: int): real {
    if x >= 0 then m * Pow10(x) as real else m / Pow10(-x) as real
  }

  function ParseUnsigned(body: string): (r: Option<real>)
    ensures r.Some? ==> |body| > 0 && AllNumeral(body)
  {
    var e := FirstOf(body, 'e', 'E');
    var mantissa := ParseMantissa(body[..e]);
    if mantissa.None? then None
    else if e == |body| then
      assert body[..e] == body;
      mantissa
    else
      var exponent := ParseExponent(body[e + 1..]);
      if exponent.None? then None
      else
        assert AllNumeral(body) by {
          AllNumeralConcat(body[..e], [body[e]]);
          AllNumeralConcat(body[..e] + [body[e]], body[e + 1..]);
          assert body == body[..e] + [body[e]] + body[e + 1..];
        }
        Some(Scale(mantissa.value, exponent.value))
  }

  /** Python's `float(token)` for a token without surrounding whitespace:
      `None` where Python raises `ValueError`. Any character outside the
      numeral alphabet (a decimal comma, a letter, a space) makes it fail. */
  function Parse(s: string): (r: Option<real>)
    ensures r.Some? ==> |s| > 0 && AllNumeral(s)
  {
    if |s| > 0 && (s[0] == '+' || s[0] == '-') then
      var v := ParseUnsigned(s[1..]);
      if v.None? then None
      else
        assert AllNumeral(s) by {
          AllNumeralConcat([s[0]], s[1..]);
          assert s == [s[0]] + s[1..];
        }
        Some(if s[0] == '-' then -v.value else v.value)
    else
      ParseUnsigned(s)
  }

  // ---------------------------------------------------------------------
  // Rendering integers, the inverse direction.

  function Digit(d: nat): (c: char)
    requires d < 10
    ensures IsDigit(c) && DigitValue(c) == d
  {
    (('0' as int) + d) as char
  }

  /** The decimal digits of `n`, without leading zeros. */
  function Render(n: nat): (r: string)
    ensures |r| > 0 && AllDigits(r)
    ensures DigitsValue(r) == n
  {
    if n < 10 then
      [Digit(n)]
    else
      var p := Render(n / 10);
      var r := p + [Digit(n % 10)];
      assert r[..|r| - 1] == p;
      r
  }

  /** An integer written the way Python's `str(int)` writes it. */
  function RenderInt(i: int): string {
    if i < 0 then "-" + Render(-i) else Render(i)
  }

  lemma MantissaDigits(s: string)
    requires |s| > 0 && AllDigits(s)
    ensures ParseMantissa(s) == Some(DigitsValue(s) as real)
  {
    assert FirstOf(s, '.', '.') == |s|;
  }

  lemma UnsignedDigits(s: string)
    requires |s| > 0 && AllDigits(s)
    ensures ParseUnsigned(s) == Some(DigitsValue(s) as real)
  {
    assert FirstOf(s, 'e', 'E') == |s|;
    assert s[..|s|] == s;
    MantissaDigits(s);
  }

  lemma ParseDigits(s: string)
    requires |s| > 0 && AllDigits(s)
    ensures Parse(s) == Some(DigitsValue(s) as real)
  {
    UnsignedDigits(s);
  }

  /** Reading back a written integer gives the integer. */
  lemma ParseRenderInt(i: int)
    ensures Parse(RenderInt(i)) == Some(i as real)
  {
    if i < 0 {
      var s := RenderInt(i);
      assert s[1..] == Render(-i);
      UnsignedDigits(Render(-i));
    } else {
      ParseDigits(Render(i));
    }
  }

  // ---------------------------------------------------------------------
  // Values of numerals with a point, a sign or an exponent.

  /** A mantissa on its own, without sign or exponent, reads as the
      mantissa. */
  lemma ParseMantissaOnly(m: string)
    requires ParseMantissa(m).Some?
    ensures Parse(m) == ParseMantissa(m)
  {
    assert FirstOf(m, 'e', 'E') == |m|;
    assert m[..|m|] == m;
  }

  lemma FirstPoint(ip: string, fp: string)
    requires AllDigits(ip)
    ensures FirstOf(ip + "." + fp, '.', '.') == |ip|
  {
    var m := ip + "." + fp;
    var k := FirstOf(m, '.', '.');
    assert m[|ip|] == '.';
  }

  lemma MantissaAt(m: string, ip: string, fp: string)
    requires FirstOf(m, '.', '.') == |ip| < |m|
    requires m[..|ip|] == ip && m[|ip| + 1..] == fp
    requires AllDigits(ip) && AllDigits(fp) && |ip| + |fp| > 0
    ensures ParseMantissa(m) == Some(DigitsValue(ip) as real + Fraction(fp))
  {
  }

  lemma MantissaPointed(ip: string, fp: string)
    requires AllDigits(ip) && AllDigits(fp) && |ip| + |fp| > 0
    ensures ParseMantissa(ip + "." + fp) == Some(DigitsValue(ip) as real + Fraction(fp))
  {
    FirstPoint(ip, fp);
    assert (ip + "." + fp)[..|ip|] == ip && (ip + "." + fp)[|ip| + 1..] == fp by {}
    MantissaAt(ip + "." + fp, ip, fp);
  }

  /** `digits '.' digits` reads as the integer part plus the fraction. */
  lemma ParsePointed(ip: string, fp: string)
    requires AllDigits(ip) && AllDigits(fp) && |ip| + |fp| > 0
    ensures Parse(ip + "." + fp) == Some(DigitsValue(ip) as real + Fraction(fp))
  {
    MantissaPointed(ip, fp);
    ParseMantissaOnly(ip + "." + fp);
  }

  /** A leading minus sign negates the value of an unsigned numeral. */
  lemma ParseNegated(s: string)
    requires |s| > 0 && s[0] != '+' && s[0] != '-' && Parse(s).Some?
    ensures Parse("-" + s) == Some(-Parse(s).value)
  {
    assert ("-" + s)[1..] == s;
  }

  /** An exponent written as an integer scales the mantissa by that power
      of ten. */
  lemma ParseScaled(m: string, x: int)
    requires ParseMantissa(m).Some?
    ensures Parse(m + "e" + RenderInt(x)) == Some(Scale(ParseMantissa(m).value, x))
  {
    var e := RenderInt(x);
    var s := m + "e" + e;
    assert forall i :: 0 <= i < |m| ==> s[i] == m[i];
    assert s[|m|] == 'e';
    assert FirstOf(s, 'e', 'E') == |m|;
    assert s[..|m|] == m && s[|m| + 1..] == e;
    ExponentReadBack(x);
    assert s[0] != '+' && s[0] != '-' by {
      assert s[0] == m[0];
    }
  }

  lemma ExponentReadBack(x: int)
    ensures ParseExponent(RenderInt(x)) == Some(x)
  {
    var e := RenderInt(x);
    if x < 0 {
      assert e[1..] == Render(-x);
    } else {
      assert IsDigit(e[0]);
    }
  }

  /** A reading as it appears in a measurement file. */
  lemma ParseReading()
    ensures Parse("925.3") == Some(925.3)
  {
    assert "925.3" == "925" + "." + "3";
    assert DigitsValue("925") == 925 by {
      assert "925"[..2] == "92" && "92"[..1] == "9" && "9"[..0] == "";
    }
    assert DigitsValue("3") == 3 by {
      assert "3"[..0] == "";
    }
    ParsePointed("925", "3");
  }
}

=== FILE: electromagnet.dfy ===
/** The electromagnet calibration files: the first two whitespace-separated
    fields of every line with at least two, decimal commas turned into
    points, both columns converted to numbers (a file with an unconvertible
    field is skipped), and the voltage column centred on its mean. */
module Electromagnet {
  import opened Fallible
  import opened Text
  import Decimal
  import opened Stats

  /** `trocar_virgula_por_ponto`: every comma of every field becomes a
      point. */
  function CommasToPoints(items: seq<string>): (r: seq<string>)
    ensures |r| == |items|
    ensures forall i :: 0 <= i < |items| ==> |r[i]| == |items[i]|
    ensures forall i, k :: 0 <= i < |items| && 0 <= k < |r[i]| ==> r[i][k] != ','
    ensures forall i, k :: 0 <= i < |items| && 0 <= k < |items[i]| && items[i][k] == ',' ==> r[i][k] == '.'
    ensures forall i, k :: 0 <= i < |items| && 0 <= k < |items[i]| && items[i][k] != ',' ==> r[i][k] == items[i][k]
    ensures forall i :: 0 <= i < |items| && ',' !in items[i] ==> r[i] == items[i]
  {
    forall i | 0 <= i < |items|
      ensures ',' !in items[i] ==> ReplaceChar(items[i], ',', '.') == items[i]
    {
      if ',' !in items[i] {
        ReplaceAbsent(items[i], ',', '.');
      }
    }
    ReplaceEach(items, ',', '.')
  }

  /** Converting twice is converting once. */
  lemma CommasToPointsIdempotent(items: seq<string>)
    ensures CommasToPoints(CommasToPoints(items)) == CommasToPoints(items)
  {
  }

  /** `a` and `b` are the first two fields of some line of `lines`. */
  ghost predicate PairFrom(lines: seq<string>, a: string, b: string) {
    exists k :: 0 <= k < |lines| && |Split(lines[k])| >= 2 && Split(lines[k])[0] == a && Split(lines[k])[1] == b
  }

  lemma PairFromTail(lines: seq<string>, a: string, b: string)
    requires lines != [] && PairFrom(lines[1..], a, b)
    ensures PairFrom(lines, a, b)
  {
    var k :| 0 <= k < |lines[1..]| && |Split(lines[1..][k])| >= 2 && Split(lines[1..][k])[0] == a && Split(lines[1..][k])[1] == b;
    assert lines[1..][k] == lines[k + 1];
  }

  /** The two raw columns: fields 0 and 1 of every line that has at least
      two fields, in file order. */
  function Columns(lines: seq<string>): (cols: (seq<string>, seq<string>))
    ensures |cols.0| == |cols.1| <= |lines|
    ensures forall i :: 0 <= i < |cols.0| ==> IsWord(cols.0[i]) && IsWord(cols.1[i])
  {
    if lines == [] then ([], [])
    else
      var rest := Columns(lines[1..]);
      match LinePair(lines[0])
      case Some(p) => ([p.0] + rest.0, [p.1] + rest.1)
      case None => rest
  }

  /** Every entry pair of the columns is the first two fields of one of the
      lines. */
  lemma {:induction false} ColumnsFromLines(lines: seq<string>)
    ensures forall i :: 0 <= i < |Columns(lines).0| ==> PairFrom(lines, Columns(lines).0[i], Columns(lines).1[i])
  {
    if lines != [] {
      ColumnsFromLines(lines[1..]);
      var rest := Columns(lines[1..]);
      var cols := Columns(lines);
      forall i | 0 <= i < |cols.0|
        ensures PairFrom(lines, cols.0[i], cols.1[i])
      {
        if LinePair(lines[0]).Some? {
          if i == 0 {
            assert |Split(lines[0])| >= 2;
          } else {
            assert cols.0[i] == rest.0[i - 1] && cols.1[i] == rest.1[i - 1];
            assert PairFrom(lines[1..], rest.0[i - 1], rest.1[i - 1]);
            PairFromTail(lines, cols.0[i], cols.1[i]);
          }
        } else {
          assert cols == rest;
          assert PairFrom(lines[1..], rest.0[i], rest.1[i]);
          PairFromTail(lines, cols.0[i], cols.1[i]);
        }
      }
    }
  }

  /** The first two fields of a line, if it has two. */
  function LinePair(line: string): (p: Option<(string, string)>)
    ensures p.Some? ==> IsWord(p.value.0) && IsWord(p.value.1)
  {
    var ws := Split(line);
    if |ws| >= 2 then Some((ws[0], ws[1])) else None
  }

  /** Lines of two or more fields contribute their first two fields. */
  lemma {:induction false} ColumnsAppend(a: seq<string>, b: seq<string>)
    ensures Columns(a + b).0 == Columns(a).0 + Columns(b).0
    ensures Columns(a + b).1 == Columns(a).1 + Columns(b).1
  {
    if a != [] {
      assert (a + b)[0] == a[0] && (a + b)[1..] == a[1..] + b;
      ColumnsAppend(a[1..], b);
    } else {
      assert a + b == b;
    }
  }

  /** A line written as whitespace-separated fields contributes its first
      two fields; a line with fewer than two contributes nothing. */
  lemma ColumnsWritten(ws: seq<string>)
    requires forall i :: 0 <= i < |ws| ==> IsWord(ws[i])
    ensures |ws| >= 2 ==> Columns([JoinWords(ws)]) == ([ws[0]], [ws[1]])
    ensures |ws| < 2 ==> Columns([JoinWords(ws)]) == ([], [])
  {
    SplitJoin(ws);
    ColumnsSingle(JoinWords(ws));
  }

  lemma ColumnsSingle(line: string)
    ensures LinePair(line).Some? ==> Columns([line]) == ([LinePair(line).value.0], [LinePair(line).value.1])
    ensures LinePair(line).None? ==> Columns([line]) == ([], [])
  {
    assert [line][1..] == [];
    assert Columns([line][1..]) == ([], []);
    if LinePair(line).Some? {
      var p := LinePair(line).value;
      assert Columns([line]) == ([p.0] + [], [p.1] + []);
      assert [p.0] + [] == [p.0] && [p.1] + [] == [p.1];
    }
  }

  /** `list(map(float, coluna))`: every field converted, or nothing when one
      of them is not a number. */
  function ParseColumn(items: seq<string>): (r: Option<seq<real>>)
    ensures r.None? <==> exists i :: 0 <= i < |items| && Decimal.Parse(items[i]).None?
    ensures r.Some? ==> |r.value| == |items|
    ensures r.Some? ==> forall i :: 0 <= i < |items| ==> Decimal.Parse(items[i]) == Some(r.value[i])
  {
    if items == [] then Some([])
    else
      match Decimal.Parse(items[0])
      case None => None
      case Some(v) =>
        match ParseColumn(items[1..])
        case None => None
        case Some(rest) => Some([v] + rest)
  }

  /** A calibration curve: the field and the centred voltage. */
  datatype Curve = Curve(field: seq<real>, voltage: seq<real>)

  /** One file of the `Eletroima` loop, `None` when it is skipped. */
  function Calibrate(lines: seq<string>): (r: Option<Curve>)
    ensures var cols := Columns(lines);
      r.Some? <==> ParseColumn(CommasToPoints(cols.0)).Some? && ParseColumn(CommasToPoints(cols.1)).Some?
    ensures r.Some? ==> |r.value.field| == |r.value.voltage| == |Columns(lines).0|
    ensures r.Some? ==> Sum(r.value.voltage) == 0.0
    ensures r.Some? ==> var cols := Columns(lines);
      forall i :: 0 <= i < |cols.0| ==> Decimal.Parse(ReplaceChar(cols.0[i], ',', '.')) == Some(r.value.field[i])
    ensures r.Some? ==> var cols := Columns(lines);
      var b := ParseColumn(CommasToPoints(cols.1)).value;
      |b| > 0 ==> forall i :: 0 <= i < |cols.1| ==>
        Decimal.Parse(ReplaceChar(cols.1[i], ',', '.')) == Some(b[i]) && r.value.voltage[i] == b[i] - Mean(b)
  {
    var cols := Columns(lines);
    match ParseColumn(CommasToPoints(cols.0))
    case None => None
    case Some(a) =>
      match ParseColumn(CommasToPoints(cols.1))
      case None => None
      case Some(b) =>
        MeanCenterSumZero(b);
        Some(Curve(a, MeanCenter(b)))
  }

  /** The centred voltages keep the differences of the measured ones: the
      curve is the measured one moved down by a constant. */
  lemma CalibrateShifts(lines: seq<string>)
    requires Calibrate(lines).Some?
    ensures var b := ParseColumn(CommasToPoints(Columns(lines).1)).value;
      var v := Calibrate(lines).value.voltage;
      forall i, j :: 0 <= i < |v| && 0 <= j < |v| ==> v[i] - v[j] == b[i] - b[j]
  {
  }

  /** A file written with decimal commas calibrates as the same file
      written with points. */
  lemma CalibrateCommaInsensitive(lines: seq<string>)
    ensures Calibrate(lines) == Calibrate(seq(|lines|, i requires 0 <= i < |lines| => ReplaceChar(lines[i], ',', '.')))
  {
    var lines' := seq(|lines|, i requires 0 <= i < |lines| => ReplaceChar(lines[i], ',', '.'));
    ColumnsReplace(lines);
    assert lines' == ReplaceLines(lines);
    var c, c' := Columns(lines), Columns(lines');
    CommasToPointsIdempotent(c.0);
    CommasToPointsIdempotent(c.1);
  }

  function ReplaceLines(lines: seq<string>): (r: seq<string>)
    ensures |r| == |lines|
    ensures forall i :: 0 <= i < |lines| ==> r[i] == ReplaceChar(lines[i], ',', '.')
  {
    if lines == [] then [] else [ReplaceChar(lines[0], ',', '.')] + ReplaceLines(lines[1..])
  }

  lemma {:induction false} ColumnsReplace(lines: seq<string>)
    ensures Columns(ReplaceLines(lines)).0 == CommasToPoints(Columns(lines).0)
    ensures Columns(ReplaceLines(lines)).1 == CommasToPoints(Columns(lines).1)
  {
    if lines != [] {
      ColumnsReplace(lines[1..]);
      assert ReplaceLines(lines)[1..] == ReplaceLines(lines[1..]);
      SplitReplace(lines[0], ',', '.');
      var ws := Split(lines[0]);
      var rest := Columns(lines[1..]);
      assert LinePair(ReplaceChar(lines[0], ',', '.')).Some? <==> |ws| >= 2;
      if |ws| >= 2 {
        assert LinePair(lines[0]) == Some((ws[0], ws[1]));
        ReplaceEachCons(ws[0], rest.0, ',', '.');
        ReplaceEachCons(ws[1], rest.1, ',', '.');
      }
    }
  }
}

=== FILE: fallible.dfy ===
/** Failure-carrying values used wherever the analysis code raises an exception
    or returns an "absent" marker. */
module Fallible {

  /** A value that may be absent (Python's `None`, a failed parse). */
  datatype Option<+T> = None | Some(value: T) {

    /** The held value, or `default` when absent. */
    function GetOr(default: T): T {
      match this
      case Some(v) => v
      case None => default
    }
  }

  /** A computation that either produced a value or raised an error. */
  datatype Result<+R, +E> = Success(value: R) | Failure(error: E) {

    predicate IsFailure() {
      Failure?
    }

    function PropagateFailure<U>(): Result<U, E>
      requires Failure?
    {
      Failure(error)
    }

    function Extract(): R
      requires Success?
    {
      value
    }
  }
}

=== FILE: fitting.dfy ===
/** Fitting one angle (`AjustadorMultiplosAngulos.ajustar_angulo`): the
    angle's points are selected, the seed dictionary becomes the optimiser's
    starting point with the bounds 900 <= Hr1 <= 950 and 0 <= dH1 <= 100, and
    a converged fit is stored under the angle. The least-squares optimiser
    itself is a parameter of the model: a function from the problem it is
    given to the fitted parameters, or `None` when it does not converge. */
module Fitting {
  import opened Fallible
  import opened Loader
  import opened Lineshape

  /** A parameter dictionary: name to starting value. */
  type Seed = map<string, real>

  /** The names `modelo` reads, in the order the code first touches them:
      `Hr1` and `dH1` get their bounds before the fit starts, and `a`, `b`,
      `c` are read by the first evaluation of the model. */
  const ParamOrder: seq<string> := ["Hr1", "dH1", "a", "b", "c"]

  /** The `parametros` dictionary stored for a fitted angle. */
  function AsSeed(p: Params): (s: Seed)
    ensures s.Keys == {"a", "b", "c", "Hr1", "dH1"}
  {
    map["a" := p.a, "b" := p.b, "c" := p.c, "Hr1" := p.hr1, "dH1" := p.dh1]
  }

  datatype FitError =
    | NoData(angle: real)           // the angle selects no point (ValueError)
    | MissingParameter(name: string) // a name of ParamOrder is not in the seed (KeyError)
    | NotConverged                   // the optimiser reported no success (RuntimeError)

  /** The five fitted quantities read from a seed, failing on the first
      missing name of `ParamOrder`. */
  function ReadParams(seed: Seed): (r: Result<Params, FitError>)
    ensures r.Success? <==> forall i :: 0 <= i < |ParamOrder| ==> ParamOrder[i] in seed
    ensures r.Failure? ==>
      exists i :: && 0 <= i < |ParamOrder|
                  && r.error == MissingParameter(ParamOrder[i])
                  && ParamOrder[i] !in seed
                  && forall j :: 0 <= j < i ==> ParamOrder[j] in seed
  {
    assert |ParamOrder| == 5;
    assert ParamOrder[0] == "Hr1" && ParamOrder[1] == "dH1" && ParamOrder[2] == "a";
    assert ParamOrder[3] == "b" && ParamOrder[4] == "c";
    if "Hr1" !in seed then Failure(MissingParameter("Hr1"))
    else if "dH1" !in seed then Failure(MissingParameter("dH1"))
    else if "a" !in seed then Failure(MissingParameter("a"))
    else if "b" !in seed then Failure(MissingParameter("b"))
    else if "c" !in seed then Failure(MissingParameter("c"))
    else Success(Params(seed["a"], seed["b"], seed["c"], seed["Hr1"], seed["dH1"]))
  }

  /** Stored parameters read back are the fitted parameters. */
  lemma ReadStoredParams(p: Params)
    ensures ReadParams(AsSeed(p)) == Success(p)
  {
  }

  /** Reading a seed looks at the five names only: any extra entries (`d`,
      `Hr2`, `dH2` of the interactive prompt) make no difference. */
  lemma ReadParamsIgnoresExtra(seed: Seed, extra: Seed)
    requires forall i :: 0 <= i < |ParamOrder| ==> ParamOrder[i] !in extra
    ensures ReadParams(seed + extra) == ReadParams(seed)
  {
    assert ParamOrder[0] !in extra && ParamOrder[1] !in extra && ParamOrder[2] !in extra;
    assert ParamOrder[3] !in extra && ParamOrder[4] !in extra;
  }

  /** Closed interval given to the optimiser for one parameter. */
  datatype Bounds = Bounds(lo: real, hi: real)

  const Hr1Bounds: Bounds := Bounds(900.0, 950.0)
  const DH1Bounds: Bounds := Bounds(0.0, 100.0)

  /** What the optimiser is asked: every seed entry as a starting value, the
      angle's points, and the bounds on `Hr1` and `dH1`. */
  datatype Problem = Problem(seed: Seed, fields: seq<real>, signals: seq<real>,
                             hr1: Bounds, dh1: Bounds)

  /** The least-squares minimiser: the fitted parameters, or `None` when it
      does not converge. */
  type Optimizer = Problem -> Option<Params>

  /** What `resultados[angulo]` holds: the angle's points and the fitted
      parameters. */
  datatype Entry = Entry(fields: seq<real>, signals: seq<real>, params: Params)

  type Store = map<real, Entry>

  function ProblemFor(seed: Seed, sel: Selection): Problem {
    Problem(seed, sel.fields, sel.signals, Hr1Bounds, DH1Bounds)
  }

  /** The fit of one angle without its effect on the store. */
  function Attempt(rows: seq<Row>, angle: real, seed: Seed, fit: Optimizer): (r: Result<Entry, FitError>)
    ensures angle !in Angles(rows) ==> r == Failure(NoData(angle))
    ensures angle in Angles(rows) && ReadParams(seed).Failure? ==> r == Failure(ReadParams(seed).error)
    ensures r.Success? <==>
      && angle in Angles(rows)
      && ReadParams(seed).Success?
      && fit(ProblemFor(seed, Select(rows, angle).value)).Some?
    ensures r.Failure? && angle in Angles(rows) && ReadParams(seed).Success? ==> r.error == NotConverged
    ensures r.Success? ==> r.value.params == fit(ProblemFor(seed, Select(rows, angle).value)).value
  {
    match Select(rows, angle)
    case Failure(_) => Failure(NoData(angle))
    case Success(sel) =>
      match ReadParams(seed)
      case Failure(e) => Failure(e)
      case Success(_) =>
        match fit(ProblemFor(seed, sel))
        case None => Failure(NotConverged)
        case Some(p) => Success(Entry(sel.fields, sel.signals, p))
  }

  /** An angle taken from the data always has points, so its fit can only
      fail for a missing parameter or for lack of convergence. */
  lemma AttemptWithData(rows: seq<Row>, angle: real, seed: Seed, fit: Optimizer)
    requires angle in Angles(rows) && Attempt(rows, angle, seed, fit).Failure?
    ensures Attempt(rows, angle, seed, fit).error.MissingParameter?
            || Attempt(rows, angle, seed, fit).error == NotConverged
  {
  }

  /** A seed holding all five names never fails for a missing one. */
  lemma AttemptWithCompleteSeed(rows: seq<Row>, angle: real, seed: Seed, fit: Optimizer)
    requires ReadParams(seed).Success? && Attempt(rows, angle, seed, fit).Failure?
    ensures !Attempt(rows, angle, seed, fit).error.MissingParameter?
  {
  }

  /** A stored entry holds exactly the angle's points: one pair per row whose
      angle equals it, in file order, and at least one. */
  lemma AttemptSelects(rows: seq<Row>, angle: real, seed: Seed, fit: Optimizer)
    requires Attempt(rows, angle, seed, fit).Success?
    ensures var e := Attempt(rows, angle, seed, fit).value;
      && |e.fields| == |e.signals| == |Matching(rows, angle)| > 0
      && forall i :: 0 <= i < |e.fields| ==>
           Matching(rows, angle)[i] == Row(e.fields[i], angle, e.signals[i])
  {
  }

  /** The store update of `ajustar_angulo`: a fitted entry is stored under
      its angle, replacing any earlier one, and nothing else changes; an
      error leaves the caller with the store as it was. */
  function Record(store: Store, angle: real, r: Result<Entry, FitError>): (s: Result<Store, FitError>)
    ensures s.Failure? <==> r.Failure?
    ensures s.Failure? ==> s.error == r.error
    ensures s.Success? ==>
      && s.value.Keys == store.Keys + {angle}
      && s.value[angle] == r.value
      && forall a :: a in store && a != angle ==> s.value[a] == store[a]
  {
    var entry :- r;
    Success(store[angle := entry])
  }

  /** The fit of one angle as a function of the angle and the seed, with the
      data and the optimiser fixed. */
  type Attempter = (real, Seed) -> Result<Entry, FitError>

  function AttemptOn(rows: seq<Row>, fit: Optimizer): Attempter {
    (angle: real, seed: Seed) => Attempt(rows, angle, seed, fit)
  }

  /** `ajustar_angulo`: on success the store gains (or replaces) the entry of
      this angle and no other entry changes; on failure the error is raised
      and the caller's store is left as it was. */
  function FitAngle(rows: seq<Row>, angle: real, seed: Seed, store: Store, fit: Optimizer): (r: Result<Store, FitError>)
    ensures r.Failure? <==> Attempt(rows, angle, seed, fit).Failure?
    ensures r.Failure? ==> r.error == Attempt(rows, angle, seed, fit).error
    ensures r.Success? ==>
      && r.value.Keys == store.Keys + {angle}
      && r.value[angle] == Attempt(rows, angle, seed, fit).value
      && forall a :: a in store && a != angle ==> r.value[a] == store[a]
  {
    Record(store, angle, AttemptOn(rows, fit)(angle, seed))
  }
}

=== FILE: hysteresis.dfy ===
/** The hysteresis (VSM) analysis: the search for the sample closest to zero,
    the remanence and coercivity read off a loop at those samples, the
    per-file step that normalises the magnetisation before reading them, and
    the cut of the instrument's header at its "(emu)" unit label. */
module Hysteresis {
  import opened Fallible
  import opened RealMath
  import opened Text
  import opened Stats

  datatype HystError =
    | EmptyVector     // `ValueError("O vetor está vazio.")`
    | IndexOutOfRange // `IndexError` when the other column is shorter

  /** The tolerance every caller uses. */
  const Tolerance: real := 0.000001

  // ---------------------------------------------------------------------
  // The sample closest to zero.

  /** The loop of `encontrar_posicao_mais_proxima_de_zero` from position
      `i`, with `idx` the index chosen so far and `best` its distance. */
  function Scan(v: seq<real>, tol: real, i: nat, idx: nat, best: real): (k: nat)
    requires i <= |v| && idx < |v|
    ensures k < |v|
    ensures k == idx || i <= k
    decreases |v| - i
  {
    if i == |v| then idx
    else
      var d := Abs(v[i]);
      if d < best - tol then Scan(v, tol, i + 1, i, d)
      else if Abs(d - best) <= tol && v[i] > 0.0 then Scan(v, tol, i + 1, i, d)
      else Scan(v, tol, i + 1, idx, best)
  }

  /** `encontrar_posicao_mais_proxima_de_zero(vetor, tolerancia)`: an empty
      vector raises, any other gives one of its positions. */
  function NearestToZero(v: seq<real>, tol: real): (r: Result<nat, HystError>)
    ensures r.Failure? <==> v == []
    ensures r.Failure? ==> r.error == EmptyVector
    ensures r.Success? ==> r.value < |v|
  {
    if v == [] then Failure(EmptyVector) else Success(Scan(v, tol, 0, 0, Abs(v[0])))
  }

  /** Position `j` holds a value of least magnitude. */
  ghost predicate IsNearest(v: seq<real>, j: int) {
    0 <= j < |v| && forall i :: 0 <= i < |v| ==> Abs(v[j]) <= Abs(v[i])
  }

  /** The exact answer: a value of least magnitude; the last positive one
      when there is a positive one, otherwise the first one. */
  ghost predicate NearestExact(v: seq<real>, k: int) {
    && IsNearest(v, k)
    && (forall j :: IsNearest(v, j) && v[j] > 0.0 ==> v[k] > 0.0 && j <= k)
    && (v[k] <= 0.0 ==> forall j :: IsNearest(v, j) ==> k <= j)
  }

  /** At most one position is the exact answer. */
  lemma NearestExactUnique(v: seq<real>, k1: int, k2: int)
    requires NearestExact(v, k1) && NearestExact(v, k2)
    ensures k1 == k2
  {
    if v[k1] > 0.0 {
      assert v[k2] > 0.0 && k1 <= k2;
    } else {
      assert v[k2] <= 0.0;
      assert k1 <= k2 && k2 <= k1;
    }
  }

  /** What the loop with tolerance 0 knows after the first `i` positions. */
  ghost predicate Scanned(v: seq<real>, i: nat, idx: nat) {
    && idx < i <= |v|
    && (forall j :: 0 <= j < i ==> Abs(v[idx]) <= Abs(v[j]))
    && (forall j :: 0 <= j < i && Abs(v[j]) == Abs(v[idx]) && v[j] > 0.0 ==> v[idx] > 0.0 && j <= idx)
    && (v[idx] <= 0.0 ==> forall j :: 0 <= j < idx ==> Abs(v[j]) != Abs(v[idx]))
  }

  /** One step of the loop with tolerance 0 keeps what it knows. */
  lemma ScannedStep(v: seq<real>, i: nat, idx: nat)
    requires Scanned(v, i, idx) && i < |v|
    ensures var d, best := Abs(v[i]), Abs(v[idx]);
      if d < best || (d == best && v[i] > 0.0) then Scanned(v, i + 1, i) else Scanned(v, i + 1, idx)
  {
  }

  /** Once every position is seen, what the loop knows is the exact answer. */
  lemma ScannedAll(v: seq<real>, idx: nat)
    requires Scanned(v, |v|, idx)
    ensures NearestExact(v, idx)
  {
    forall j | IsNearest(v, j) && v[j] > 0.0
      ensures v[idx] > 0.0 && j <= idx
    {
      assert Abs(v[j]) == Abs(v[idx]);
    }
    forall j | IsNearest(v, j) && v[idx] <= 0.0
      ensures idx <= j
    {
      assert Abs(v[j]) == Abs(v[idx]);
    }
  }

  lemma {:induction false} ScanExact(v: seq<real>, i: nat, idx: nat)
    requires Scanned(v, i, idx)
    ensures NearestExact(v, Scan(v, 0.0, i, idx, Abs(v[idx])))
    decreases |v| - i
  {
    if i == |v| {
      ScannedAll(v, idx);
    } else {
      ScannedStep(v, i, idx);
      var d, best := Abs(v[i]), Abs(v[idx]);
      if d < best || (d == best && v[i] > 0.0) {
        ScanExact(v, i + 1, i);
      } else {
        ScanExact(v, i + 1, idx);
      }
    }
  }

  /** With tolerance 0 the search finds the exact answer. */
  lemma NearestToZeroExact(v: seq<real>)
    requires v != []
    ensures NearestExact(v, NearestToZero(v, 0.0).value)
  {
    assert Scanned(v, 1, 0);
    ScanExact(v, 1, 0);
  }

  // ---------------------------------------------------------------------
  // Remanence and coercivity.

  /** The largest magnitude in a column, 0 for an empty one. */
  function MaxAbs(s: seq<real>): (m: real)
    ensures m >= 0.0
    ensures forall i :: 0 <= i < |s| ==> Abs(s[i]) <= m
    ensures s != [] ==> exists i :: 0 <= i < |s| && Abs(s[i]) == m
  {
    if s == [] then 0.0
    else
      var rest := MaxAbs(s[1..]);
      if Abs(s[0]) >= rest then Abs(s[0]) else rest
  }

  /** The mean magnitude of `read` at two positions. */
  function MeanAbs(read: seq<real>, i: nat, j: nat): (r: real)
    requires i < |read| && j < |read|
    ensures 0.0 <= r <= MaxAbs(read)
    ensures r == 0.0 <==> read[i] == 0.0 && read[j] == 0.0
  {
    (Abs(read[i]) + Abs(read[j])) / 2.0
  }

  /** The shared body of `remanencia` and `coercitividade` as the code
      writes it: `probe` is split at half its length, the sample closest to
      zero is found in each half, and `read` is indexed at the two
      positions; the second position counts from the start of the second
      half but indexes `read` from its start. */
  function MeanAtZerosAsWritten(probe: seq<real>, read: seq<real>, tol: real): (r: Result<real, HystError>)
    ensures |probe| < 2 ==> r == Failure(EmptyVector)
    ensures |probe| >= 2 && |read| >= |probe| ==> r.Success?
    ensures r.Success? ==> 0.0 <= r.value <= MaxAbs(read)
  {
    var h := |probe| / 2;
    match NearestToZero(probe[..h], tol)
    case Failure(e) => Failure(e)
    case Success(p1) =>
      // a first half that is not empty leaves a second half that is not
      var p2 := NearestToZero(probe[h..], tol).value;
      if p1 >= |read| || p2 >= |read| then Failure(IndexOutOfRange)
      else Success(MeanAbs(read, p1, p2))
  }

  /** The same, with the second position moved back into the second half,
      as the halving intends. */
  function MeanAtZeros(probe: seq<real>, read: seq<real>, tol: real): (r: Result<real, HystError>)
    ensures |probe| < 2 ==> r == Failure(EmptyVector)
    ensures |probe| >= 2 && |read| >= |probe| ==> r.Success?
    ensures r.Success? ==> 0.0 <= r.value <= MaxAbs(read)
  {
    var h := |probe| / 2;
    match NearestToZero(probe[..h], tol)
    case Failure(e) => Failure(e)
    case Success(p1) =>
      // a first half that is not empty leaves a second half that is not
      var p2 := NearestToZero(probe[h..], tol).value;
      if p1 >= |read| || h + p2 >= |read| then Failure(IndexOutOfRange)
      else Success(MeanAbs(read, p1, h + p2))
  }

  /** With tolerance 0 the corrected reading averages `read` at the zero
      crossing of each half of `probe`: one position in the first half and
      one in the second, each the exact answer within its half. */
  lemma MeanAtZerosCrossings(probe: seq<real>, read: seq<real>)
    requires |probe| >= 2 && |read| >= |probe|
    ensures var h := |probe| / 2;
      exists i, j ::
        && 0 <= i < h <= j < |probe|
        && NearestExact(probe[..h], i)
        && NearestExact(probe[h..], j - h)
        && MeanAtZeros(probe, read, 0.0) == Success(MeanAbs(read, i, j))
  {
    var h := |probe| / 2;
    var p1 := NearestToZero(probe[..h], 0.0).value;
    var p2 := NearestToZero(probe[h..], 0.0).value;
    NearestToZeroExact(probe[..h]);
    NearestToZeroExact(probe[h..]);
    var j := h + p2;
    assert 0 <= p1 < h <= j < |probe|;
    assert NearestExact(probe[h..], j - h);
    assert MeanAtZeros(probe, read, 0.0) == Success(MeanAbs(read, p1, j));
  }

  /** `remanencia(x, y)`: magnetisation where the field crosses zero. */
  function RemanenceAsWritten(x: seq<real>, y: seq<real>): (r: Result<real, HystError>)
    ensures |x| < 2 ==> r == Failure(EmptyVector)
    ensures |x| >= 2 && |y| >= |x| ==> r.Success?
    ensures r.Success? ==> 0.0 <= r.value <= MaxAbs(y)
  {
    MeanAtZerosAsWritten(x, y, Tolerance)
  }

  /** `coercitividade(x, y)`: field where the magnetisation crosses zero. */
  function CoercivityAsWritten(x: seq<real>, y: seq<real>): (r: Result<real, HystError>)
    ensures |y| < 2 ==> r == Failure(EmptyVector)
    ensures |y| >= 2 && |x| >= |y| ==> r.Success?
    ensures r.Success? ==> 0.0 <= r.value <= MaxAbs(x)
  {
    MeanAtZerosAsWritten(y, x, Tolerance)
  }

  function Remanence(x: seq<real>, y: seq<real>): (r: Result<real, HystError>)
    ensures |x| < 2 ==> r == Failure(EmptyVector)
    ensures |x| >= 2 && |y| >= |x| ==> r.Success?
    ensures r.Success? ==> 0.0 <= r.value <= MaxAbs(y)
  {
    MeanAtZeros(x, y, Tolerance)
  }

  function Coercivity(x: seq<real>, y: seq<real>): (r: Result<real, HystError>)
    ensures |y| < 2 ==> r == Failure(EmptyVector)
    ensures |y| >= 2 && |x| >= |y| ==> r.Success?
    ensures r.Success? ==> 0.0 <= r.value <= MaxAbs(x)
  {
    MeanAtZeros(y, x, Tolerance)
  }

  /** A loop whose second half crosses zero away from the start: the field
      [1, 2, 0, 3] is nearest zero at position 0 of each half, so the code
      reads the magnetisation at position 0 twice instead of at 0 and 2. */
  lemma RemanenceDiscrepancy()
    ensures RemanenceAsWritten([1.0, 2.0, 0.0, 3.0], [1.0, 0.0, 5.0, 0.0]) == Success(1.0)
    ensures Remanence([1.0, 2.0, 0.0, 3.0], [1.0, 0.0, 5.0, 0.0]) == Success(3.0)
  {
    var x := [1.0, 2.0, 0.0, 3.0];
    assert x[..2] == [1.0, 2.0];
    assert x[2..] == [0.0, 3.0];
    assert NearestToZero([1.0, 2.0], Tolerance) == Success(0);
    assert NearestToZero([0.0, 3.0], Tolerance) == Success(0);
  }

  /** The same for coercivity, with the roles of the columns swapped. */
  lemma CoercivityDiscrepancy()
    ensures CoercivityAsWritten([1.0, 0.0, 5.0, 0.0], [1.0, 2.0, 0.0, 3.0]) == Success(1.0)
    ensures Coercivity([1.0, 0.0, 5.0, 0.0], [1.0, 2.0, 0.0, 3.0]) == Success(3.0)
  {
    RemanenceDiscrepancy();
  }

  // ---------------------------------------------------------------------
  // One VSM file.

  datatype LoopError =
    | NoPoints                    // `len(colB) == 0`: the file is skipped
    | FlatLoop                    // max == min: the normalisation divides by zero
    | Unreadable(error: HystError)

  /** Remanence and coercivity of one loop. */
  datatype LoopValues = LoopValues(remanence: real, coercivity: real)

  /** The body of the VSM file loop once the columns are read: normalise
      the magnetisation, then read remanence and coercivity off the
      normalised loop. */
  function AnalyseLoop(field: seq<real>, moment: seq<real>): (r: Result<LoopValues, LoopError>)
    requires |field| == |moment|
    ensures r == Failure(NoPoints) <==> moment == []
    ensures r == Failure(FlatLoop) <==> moment != [] && Max(moment) == Min(moment)
    ensures r.Success? ==> 0.0 <= r.value.remanence <= 1.0
    ensures r.Success? ==> 0.0 <= r.value.coercivity <= MaxAbs(field)
  {
    match Normalize(moment)
    case Failure(EmptyColumn) => Failure(NoPoints)
    case Failure(ZeroRange) => Failure(FlatLoop)
    case Success(m) =>
      match Remanence(field, m)
      case Failure(e) => Failure(Unreadable(e))
      case Success(rem) =>
        match Coercivity(field, m)
        case Failure(e) => Failure(Unreadable(e))
        case Success(coe) =>
          MaxAbsUnit(m);
          Success(LoopValues(rem, coe))
  }

  /** A column inside [-1, 1] has no magnitude above 1. */
  lemma MaxAbsUnit(s: seq<real>)
    requires forall i :: 0 <= i < |s| ==> -1.0 <= s[i] <= 1.0
    ensures MaxAbs(s) <= 1.0
  {
    if s != [] {
      var i :| 0 <= i < |s| && Abs(s[i]) == MaxAbs(s);
    }
  }

  /** Every loop of at least two points that is not flat is analysed. */
  lemma AnalyseLoopSucceeds(field: seq<real>, moment: seq<real>)
    requires |field| == |moment| >= 2
    requires Max(moment) != Min(moment)
    ensures AnalyseLoop(field, moment).Success?
  {
  }

  // ---------------------------------------------------------------------
  // The instrument header.

  /** The unit label that ends the header of a VSM file. */
  const EmuMarker: string := "(emu)"

  /** `conteudo[indice + 5:]` after `indice = conteudo.find("(emu)")`, or
      nothing (the file is skipped) when the label is absent. */
  function StripEmuHeader(content: string): (r: Option<string>)
    ensures r.None? <==> forall j :: 0 <= j <= |content| ==> !OccursAt(content, EmuMarker, j)
    ensures r.Some? ==> exists i ::
      && OccursAt(content, EmuMarker, i)
      && (forall j :: 0 <= j < i ==> !OccursAt(content, EmuMarker, j))
      && r.value == content[i + |EmuMarker|..]
  {
    var i := Find(content, EmuMarker);
    if i == -1 then None else Some(content[i + |EmuMarker|..])
  }

  /** A header free of the label, the label, then the data: the strip keeps
      exactly the data, whatever the data holds. */
  lemma StripEmuHeaderRoundTrip(header: string, body: string)
    requires forall j :: 0 <= j <= |header| ==> !OccursAt(header, EmuMarker, j)
    ensures StripEmuHeader(header + EmuMarker + body) == Some(body)
  {
    var c := header + EmuMarker + body;
    var n := |header|;
    assert OccursAt(c, EmuMarker, n) by {
      assert c[n..n + 5] == EmuMarker;
    }
    forall j | 0 <= j < n
      ensures !OccursAt(c, EmuMarker, j)
    {
      if OccursAt(c, EmuMarker, j) {
        assert c[j + 4] == ')' by {
          assert c[j..j + 5][4] == EmuMarker[4];
        }
        if j + 4 < n {
          assert c[j..j + 5] == header[j..j + 5];
          assert OccursAt(header, EmuMarker, j);
        }
      }
    }
    var i := Find(c, EmuMarker);
    assert i == n;
    assert c[n + 5..] == body;
  }
}

=== FILE: impedance.dfy ===
/** The impedance analysis up to the fit: the data file's commas become
    spaces so that it loads as whitespace-separated columns, and the
    Lorentzian fit starts from guesses taken on the points after the middle
    of the sweep. The fit itself is not modelled. */
module Impedance {
  import opened Fallible
  import opened Text
  import opened Stats

  // ---------------------------------------------------------------------
  // Commas.

  /** The text of `substituir_virgula_por_espaco`: every comma becomes a
      space. */
  function CommasToSpaces(s: string): (r: string)
    ensures |r| == |s|
    ensures forall i :: 0 <= i < |s| ==> r[i] != ','
    ensures forall i :: 0 <= i < |s| && s[i] != ',' ==> r[i] == s[i]
    ensures forall i :: 0 <= i < |s| && s[i] == ',' ==> r[i] == ' '
  {
    ReplaceChar(s, ',', ' ')
  }

  /** Fields written between commas. */
  function JoinCommas(ws: seq<string>): string
  {
    if ws == [] then []
    else if |ws| == 1 then ws[0]
    else ws[0] + "," + JoinCommas(ws[1..])
  }

  predicate CommaFree(w: string) {
    forall k :: 0 <= k < |w| ==> w[k] != ','
  }

  /** Once commas are spaces, comma-joined words are the space-joined words. */
  lemma {:induction false} CommasToSpacesJoin(ws: seq<string>)
    requires forall i :: 0 <= i < |ws| ==> CommaFree(ws[i])
    ensures CommasToSpaces(JoinCommas(ws)) == JoinWords(ws)
  {
    if |ws| >= 2 {
      CommasToSpacesJoin(ws[1..]);
      var rest := JoinCommas(ws[1..]);
      ReplaceConcat(ws[0] + ",", rest, ',', ' ');
      ReplaceConcat(ws[0], ",", ',', ' ');
      ReplaceAbsent(ws[0], ',', ' ');
    } else if |ws| == 1 {
      ReplaceAbsent(ws[0], ',', ' ');
    }
  }

  /** A comma-separated line of fields splits back into its fields. */
  lemma CommaLineSplits(ws: seq<string>)
    requires forall i :: 0 <= i < |ws| ==> IsWord(ws[i]) && CommaFree(ws[i])
    ensures Split(CommasToSpaces(JoinCommas(ws))) == ws
  {
    CommasToSpacesJoin(ws);
    SplitJoin(ws);
  }

  // ---------------------------------------------------------------------
  // The fit window and the initial guesses.

  /** `s[len(s) // 2 + 1:]`: the points strictly after the middle. */
  function FitWindow(s: seq<real>): (w: seq<real>)
    ensures |w| <= |s| && w == s[|s| - |w|..]
    ensures s == [] ==> w == []
    ensures s != [] ==> |w| == (|s| - 1) / 2
  {
    var start := |s| / 2 + 1;
    if start >= |s| then [] else s[start..]
  }

  /** `np.argmax(s)`: the first position of the largest value. */
  function ArgMax(s: seq<real>): (k: nat)
    requires s != []
    ensures k < |s|
    ensures forall i :: 0 <= i < |s| ==> s[i] <= s[k]
    ensures forall i :: 0 <= i < k ==> s[i] < s[k]
  {
    if |s| == 1 then 0
    else
      var k := ArgMax(s[1..]);
      if s[0] >= s[1 + k] then 0 else 1 + k
  }

  /** The conditions on `ArgMax` leave one position. */
  lemma ArgMaxUnique(s: seq<real>, k: nat)
    requires k < |s|
    requires forall i :: 0 <= i < |s| ==> s[i] <= s[k]
    requires forall i :: 0 <= i < k ==> s[i] < s[k]
    ensures ArgMax(s) == k
  {
    var a := ArgMax(s);
    assert !(a < k) && !(k < a);
  }

  datatype GuessError =
    | EmptyWindow     // `np.argmax` of an empty array raises ValueError
    | IndexOutOfRange // the field window is shorter than the impedance window

  /** Initial values of the Lorentzian's parameters m, n, Hr and dH. */
  datatype Guess = Guess(m: real, n: real, hr: real, dh: real)

  /** `m_guess`, `Hr_guess` and `dH_guess` from the field `x` and the
      impedance `y`; `n` starts at 0. */
  function InitialGuess(x: seq<real>, y: seq<real>): (r: Result<Guess, GuessError>)
    ensures r == Failure(EmptyWindow) <==> |y| < 3
    ensures |x| == |y| ==> (r.Success? <==> |y| >= 3)
    ensures r.Success? ==>
      && r.value.m in FitWindow(y)
      && (forall i :: 0 <= i < |FitWindow(y)| ==> FitWindow(y)[i] <= r.value.m)
      && r.value.n == 0.0
      && r.value.hr in FitWindow(x)
      && Min(FitWindow(x)) <= r.value.hr <= Max(FitWindow(x))
      && r.value.dh >= 0.0
      && 10.0 * r.value.dh == Max(FitWindow(x)) - Min(FitWindow(x))
  {
    var xw, yw := FitWindow(x), FitWindow(y);
    if yw == [] then Failure(EmptyWindow)
    else
      var a := ArgMax(yw);
      if a >= |xw| then Failure(IndexOutOfRange)
      else
        assert xw[a] in xw;
        Success(Guess(Max(yw), 0.0, xw[a], (Max(xw) - Min(xw)) / 10.0))
  }

  /** Position `j` after the middle of `y` holds the first largest value of
      the points after the middle. */
  ghost predicate PeakAfterMiddle(y: seq<real>, j: int) {
    && |y| / 2 < j < |y|
    && (forall i :: |y| / 2 < i < |y| ==> y[i] <= y[j])
    && (forall i :: |y| / 2 < i < j ==> y[i] < y[j])
  }

  lemma WindowPeak(y: seq<real>)
    requires |y| >= 3
    ensures PeakAfterMiddle(y, |y| / 2 + 1 + ArgMax(FitWindow(y)))
  {
    var yw := FitWindow(y);
    var a := ArgMax(yw);
    var s := |y| / 2 + 1;
    assert yw == y[s..];
    var j := s + a;
    forall i | |y| / 2 < i < |y|
      ensures y[i] <= y[j]
    {
      assert y[i] == yw[i - s];
    }
    forall i | |y| / 2 < i < j
      ensures y[i] < y[j]
    {
      assert y[i] == yw[i - s];
    }
  }

  /** On a sweep of equal columns the resonance guess is the field at the
      first impedance peak after the middle, and the peak height is the
      impedance there. */
  lemma InitialGuessAtPeak(x: seq<real>, y: seq<real>)
    requires |x| == |y| >= 3
    ensures exists j ::
      && PeakAfterMiddle(y, j)
      && InitialGuess(x, y).value.hr == x[j]
      && InitialGuess(x, y).value.m == y[j]
  {
    var a := ArgMax(FitWindow(y));
    var j := |y| / 2 + 1 + a;
    InitialGuessPicks(x, y);
    WindowPeak(y);
    assert FitWindow(x)[a] == x[j] && FitWindow(y)[a] == y[j];
  }

  /** On equal columns both guesses are taken at the window's argmax. */
  lemma InitialGuessPicks(x: seq<real>, y: seq<real>)
    requires |x| == |y| >= 3
    ensures var a := ArgMax(FitWindow(y));
      && a < |FitWindow(x)|
      && InitialGuess(x, y).value.hr == FitWindow(x)[a]
      && InitialGuess(x, y).value.m == FitWindow(y)[a]
  {
    var yw := FitWindow(y);
    MaxUnique(yw, yw[ArgMax(yw)]);
  }
}

=== FILE: lineshape.dfy ===
/** The two line shapes of the analysis: the derivative-like FMR model
    `AjustadorMultiplosAngulos.modelo` (a linear background plus one
    antisymmetric resonance term) and the asymmetric Lorentzian `lorentz`
    used for impedance curves. Values are exact reals. */
module Lineshape {
  import opened Fallible
  import opened RealMath

  /** The five fitted parameters of one FMR angle: background offset `a`,
      background slope `b`, peak amplitude `c`, resonance field `hr1` and
      line width `dh1`. */
  datatype Params = Params(a: real, b: real, c: real, hr1: real, dh1: real)

  /** The model divides by zero exactly at `x == hr1` with zero width. */
  predicate Defined(p: Params, x: real) {
    !(x == p.hr1 && p.dh1 == 0.0)
  }

  /** `((x - Hr1)^2 + (dH1/2)^2)^2`, the denominator of the peak term. */
  function Denominator(p: Params, x: real): (d: real)
    ensures d >= 0.0
    ensures d > 0.0 <==> Defined(p, x)
  {
    Square(Square(x - p.hr1) + Square(p.dh1 / 2.0))
  }

  /** The resonance term `c (x - Hr1) / ((x - Hr1)^2 + (dH1/2)^2)^2`. */
  function Peak(p: Params, x: real): real
    requires Defined(p, x)
  {
    p.c * (x - p.hr1) / Denominator(p, x)
  }

  /** `modelo(params, x)`: the predicted signal at field `x`. */
  function Predict(p: Params, x: real): real
    requires Defined(p, x)
  {
    p.a + p.b * x + Peak(p, x)
  }

  /** `modelo(params, x, y)`: the prediction when `y` is absent, the
      residual `prediction - y` when it is given. */
  function Model(p: Params, x: real, y: Option<real>): (v: real)
    requires Defined(p, x)
    ensures y.None? ==> v - p.a - p.b * x == Peak(p, x)
    ensures y.Some? ==> v + y.value - p.a - p.b * x == Peak(p, x)
  {
    match y
    case None => Predict(p, x)
    case Some(obs) => Predict(p, x) - obs
  }

  predicate DefinedOn(p: Params, xs: seq<real>) {
    forall i :: 0 <= i < |xs| ==> Defined(p, xs[i])
  }

  /** The model applied elementwise to a field array, as numpy does. */
  function Residuals(p: Params, xs: seq<real>, ys: seq<real>): (r: seq<real>)
    requires DefinedOn(p, xs) && |ys| == |xs|
    ensures |r| == |xs|
    ensures forall i :: 0 <= i < |xs| ==> r[i] == Model(p, xs[i], Some(ys[i]))
  {
    seq(|xs|, i requires 0 <= i < |xs| => Model(p, xs[i], Some(ys[i])))
  }

  function Predictions(p: Params, xs: seq<real>): (r: seq<real>)
    requires DefinedOn(p, xs)
    ensures |r| == |xs|
    ensures forall i :: 0 <= i < |xs| ==> r[i] == Model(p, xs[i], None)
  {
    seq(|xs|, i requires 0 <= i < |xs| => Model(p, xs[i], None))
  }

  /** The residual vanishes everywhere exactly when the observations are the
      model's predictions: a perfect fit is a zero of the objective. */
  lemma ResidualsZero(p: Params, xs: seq<real>, ys: seq<real>)
    requires DefinedOn(p, xs) && |ys| == |xs|
    ensures (forall i :: 0 <= i < |xs| ==> Residuals(p, xs, ys)[i] == 0.0)
            <==> ys == Predictions(p, xs)
  {
    var r, q := Residuals(p, xs, ys), Predictions(p, xs);
    if forall i :: 0 <= i < |xs| ==> r[i] == 0.0 {
      forall i | 0 <= i < |xs|
        ensures ys[i] == q[i]
      {
        assert r[i] == Predict(p, xs[i]) - ys[i];
      }
    }
  }

  /** The peak is antisymmetric about the resonance field. */
  lemma PeakOdd(p: Params, e: real)
    requires e != 0.0 || p.dh1 != 0.0
    ensures Defined(p, p.hr1 + e) && Defined(p, p.hr1 - e)
    ensures Peak(p, p.hr1 + e) == -Peak(p, p.hr1 - e)
  {
    var d := Denominator(p, p.hr1 + e);
    assert Denominator(p, p.hr1 - e) == d by {
      assert p.hr1 + e - p.hr1 == e;
      assert p.hr1 - e - p.hr1 == -e;
      SquareEven(e);
    }
    assert p.c * (p.hr1 - e - p.hr1) == -(p.c * (p.hr1 + e - p.hr1));
    DivSign(p.c * (p.hr1 + e - p.hr1), d);
  }

  /** The peak term has the sign of `c (x - Hr1)`: it is zero exactly when
      `c` is zero or `x` sits on the resonance. */
  lemma PeakSign(p: Params, x: real)
    requires Defined(p, x)
    ensures Peak(p, x) > 0.0 <==> p.c * (x - p.hr1) > 0.0
    ensures Peak(p, x) < 0.0 <==> p.c * (x - p.hr1) < 0.0
    ensures Peak(p, x) == 0.0 <==> p.c == 0.0 || x == p.hr1
  {
    DivSign(p.c * (x - p.hr1), Denominator(p, x));
  }

  /** With zero amplitude only the linear background is left. */
  lemma FlatWithoutPeak(p: Params, x: real)
    requires Defined(p, x) && p.c == 0.0
    ensures Predict(p, x) == p.a + p.b * x
  {
    PeakSign(p, x);
  }

  // ---------------------------------------------------------------------
  // The asymmetric Lorentzian of the impedance fits.

  /** `lorentz` divides by `(x - Hr)^2 + dH^2`, zero only at the resonance
      with zero width. */
  predicate LorentzDefined(x: real, hr: real, dh: real) {
    !(x == hr && dh == 0.0)
  }

  function LorentzDenominator(x: real, hr: real, dh: real): (d: real)
    ensures d >= 0.0
    ensures d > 0.0 <==> LorentzDefined(x, hr, dh)
  {
    Square(x - hr) + Square(dh)
  }

  /** The symmetric (absorption) part `m dH^2 / ((x - Hr)^2 + dH^2)`. */
  function Absorption(x: real, m: real, hr: real, dh: real): real
    requires LorentzDefined(x, hr, dh)
  {
    m * Square(dh) / LorentzDenominator(x, hr, dh)
  }

  /** The antisymmetric (dispersion) part `n dH (x - Hr) / ((x - Hr)^2 + dH^2)`. */
  function Dispersion(x: real, n: real, hr: real, dh: real): real
    requires LorentzDefined(x, hr, dh)
  {
    n * (dh * (x - hr)) / LorentzDenominator(x, hr, dh)
  }

  /** `lorentz(x, m, n, Hr, dH)`: with a non-negative amplitude the curve
      stays within `|n|/2` of the band `[0, m]`. */
  function Lorentz(x: real, m: real, n: real, hr: real, dh: real): (v: real)
    requires LorentzDefined(x, hr, dh)
    ensures m >= 0.0 ==> -Abs(n) / 2.0 <= v <= m + Abs(n) / 2.0
  {
    DispersionBounded(x, n, hr, dh);
    assert m >= 0.0 ==> 0.0 <= Absorption(x, m, hr, dh) <= m by {
      if m >= 0.0 {
        AbsorptionBounded(x, m, hr, dh);
      }
    }
    Absorption(x, m, hr, dh) + Dispersion(x, n, hr, dh)
  }

  /** At resonance the curve takes its amplitude `m`, whatever `n` is. */
  lemma LorentzAtResonance(m: real, n: real, hr: real, dh: real)
    requires dh != 0.0
    ensures LorentzDefined(hr, hr, dh)
    ensures Lorentz(hr, m, n, hr, dh) == m
  {
    var d := LorentzDenominator(hr, hr, dh);
    assert d == Square(dh) by {
      assert Square(hr - hr) == 0.0;
    }
    MulDiv(m, Square(dh), d);
    DivSelf(d);
    assert dh * (hr - hr) == 0.0;
    DivSign(n * (dh * (hr - hr)), d);
  }

  /** For a non-negative amplitude the absorption part lies between zero and
      the amplitude. */
  lemma AbsorptionBounded(x: real, m: real, hr: real, dh: real)
    requires LorentzDefined(x, hr, dh) && m >= 0.0
    ensures 0.0 <= Absorption(x, m, hr, dh) <= m
  {
    var d := LorentzDenominator(x, hr, dh);
    DivUnit(Square(dh), d);
    MulDiv(m, Square(dh), d);
    ScaleUnit(m, Square(dh) / d);
  }

  /** The dispersion part is antisymmetric about the resonance. */
  lemma DispersionOdd(e: real, n: real, hr: real, dh: real)
    requires e != 0.0 || dh != 0.0
    ensures LorentzDefined(hr + e, hr, dh) && LorentzDefined(hr - e, hr, dh)
    ensures Dispersion(hr + e, n, hr, dh) == -Dispersion(hr - e, n, hr, dh)
  {
    var d := LorentzDenominator(hr + e, hr, dh);
    assert LorentzDenominator(hr - e, hr, dh) == d by {
      assert hr + e - hr == e;
      assert hr - e - hr == -e;
      SquareEven(e);
    }
    var k := n * (dh * (hr + e - hr));
    assert n * (dh * (hr - e - hr)) == -k;
    DivSign(k, d);
  }

  /** The dispersion part never exceeds half the dispersion amplitude in
      magnitude. */
  lemma DispersionBounded(x: real, n: real, hr: real, dh: real)
    requires LorentzDefined(x, hr, dh)
    ensures -Abs(n) / 2.0 <= Dispersion(x, n, hr, dh) <= Abs(n) / 2.0
  {
    var k, t := dh * (x - hr), LorentzDenominator(x, hr, dh);
    TwiceProductBound(x - hr, dh);
    QuotientHalfBound(n, k, t);
    assert Dispersion(x, n, hr, dh) == n * k / t;
  }
}

=== FILE: loader.dfy ===
/** Loading an FMR measurement file and selecting the points of one angle
    (`AjustadorMultiplosAngulos.carregar_dados` and the filtering half of
    `ajustar_angulo`). The file arrives as its sequence of lines; opening and
    reading it is left to the caller. */
module Loader {
  import opened Fallible
  import opened Text
  import Decimal

  /** One measured point: applied field, sample angle, resonance signal
      (the first three numeric columns of a line). */
  datatype Row = Row(field: real, angle: real, signal: real)

  /** Blank lines and header lines (`Filename:` or `#` after stripping) are
      skipped before a line is tokenised. */
  predicate IsSkipped(line: string) {
    var t := Strip(line);
    t == [] || StartsWith(t, "Filename:") || StartsWith(t, "#")
  }

  /** `float(v.replace(',', '.'))`: a decimal comma is read as a point. */
  function ParseNumber(token: string): Option<real> {
    Decimal.Parse(ReplaceChar(token, ',', '.'))
  }

  /** The first three tokens as a row; any further tokens are ignored. */
  function RowOfTokens(ws: seq<string>): Option<Row> {
    if |ws| < 3 then None
    else
      var f, a, s := ParseNumber(ws[0]), ParseNumber(ws[1]), ParseNumber(ws[2]);
      if f.Some? && a.Some? && s.Some? then Some(Row(f.value, a.value, s.value)) else None
  }

  /** What one line of the file contributes: a row, or nothing when the line
      is skipped, has fewer than three tokens or a token that is not a
      number. */
  function ParseLine(line: string): (r: Option<Row>)
    ensures r.Some? <==>
      && !IsSkipped(line)
      && |Split(line)| >= 3
      && ParseNumber(Split(line)[0]).Some?
      && ParseNumber(Split(line)[1]).Some?
      && ParseNumber(Split(line)[2]).Some?
    ensures r.Some? ==>
      && ParseNumber(Split(line)[0]) == Some(r.value.field)
      && ParseNumber(Split(line)[1]) == Some(r.value.angle)
      && ParseNumber(Split(line)[2]) == Some(r.value.signal)
  {
    if IsSkipped(line) then None else RowOfTokens(Split(line))
  }

  /** The rows of all lines that yield one, in file order. */
  function ParseLines(lines: seq<string>): (rows: seq<Row>)
    ensures |rows| <= |lines|
  {
    if lines == [] then []
    else
      var last := lines[|lines| - 1];
      ParseLines(lines[..|lines| - 1]) + (if ParseLine(last).Some? then [ParseLine(last).value] else [])
  }

  /** The angle column, in row order. */
  function Angles(rows: seq<Row>): (s: seq<real>)
    ensures |s| == |rows|
    ensures forall i :: 0 <= i < |rows| ==> s[i] == rows[i].angle
  {
    if rows == [] then [] else Angles(rows[..|rows| - 1]) + [rows[|rows| - 1].angle]
  }

  predicate StrictlyIncreasing(s: seq<real>) {
    forall i, j :: 0 <= i < j < |s| ==> s[i] < s[j]
  }

  /** `x` placed into an ascending sequence of distinct values. */
  function Insert(s: seq<real>, x: real): (r: seq<real>)
    requires StrictlyIncreasing(s)
    ensures StrictlyIncreasing(r)
    ensures forall y :: y in r <==> y in s || y == x
    decreases |s|
  {
    if s == [] then [x]
    else if x < s[0] then [x] + s
    else if x == s[0] then s
    else
      var rest := Insert(s[1..], x);
      assert forall y :: y in rest ==> s[0] < y by {
        forall y | y in s[1..]
          ensures s[0] < y
        {
          var k :| 0 <= k < |s[1..]| && s[1..][k] == y;
          assert s[k + 1] == y;
        }
      }
      assert forall j :: 0 <= j < |rest| ==> s[0] < rest[j] by {
        forall j | 0 <= j < |rest|
          ensures s[0] < rest[j]
        {
          assert rest[j] in rest;
        }
      }
      [s[0]] + rest
  }

  /** `np.unique`: the distinct values in ascending order. */
  function Unique(xs: seq<real>): (r: seq<real>)
    ensures StrictlyIncreasing(r)
    ensures forall y :: y in r <==> y in xs
  {
    if xs == [] then []
    else
      var init := xs[..|xs| - 1];
      assert xs == init + [xs[|xs| - 1]];
      Insert(Unique(init), xs[|xs| - 1])
  }

  datatype LoadError = NoNumericData

  /** A loaded file: its rows and `angulos_disponiveis`. */
  datatype DataSet = DataSet(rows: seq<Row>, angles: seq<real>)

  /** `carregar_dados`: fails when no line yields a row; otherwise keeps the
      rows and their distinct angles in ascending order. */
  function Load(lines: seq<string>): (r: Result<DataSet, LoadError>)
    ensures r.Failure? <==> ParseLines(lines) == []
    ensures r.Success? ==>
      && r.value.rows == ParseLines(lines)
      && StrictlyIncreasing(r.value.angles)
      && |r.value.angles| > 0
      && forall a :: a in r.value.angles <==> a in Angles(r.value.rows)
  {
    var rows := ParseLines(lines);
    if rows == [] then Failure(NoNumericData)
    else
      var angles := Unique(Angles(rows));
      assert Angles(rows)[0] in angles;
      Success(DataSet(rows, angles))
  }

  /** The rows measured at `angle`, in file order (the boolean mask
      `dados_completos[:, 1] == angulo`). */
  function Matching(rows: seq<Row>, angle: real): (m: seq<Row>)
    ensures forall i :: 0 <= i < |m| ==> m[i].angle == angle && m[i] in rows
  {
    if rows == [] then []
    else
      var last := rows[|rows| - 1];
      Matching(rows[..|rows| - 1], angle) + (if last.angle == angle then [last] else [])
  }

  /** The number of selected points is the number of times the angle occurs
      in the angle column. */
  lemma {:induction false} MatchingCount(rows: seq<Row>, angle: real)
    ensures |Matching(rows, angle)| == multiset(Angles(rows))[angle]
  {
    if rows != [] {
      var init, last := rows[..|rows| - 1], rows[|rows| - 1];
      assert Angles(rows) == Angles(init) + [last.angle];
      MatchingCount(init, angle);
    }
  }

  /** The field column `x` and signal column `y` of one angle. */
  datatype Selection = Selection(fields: seq<real>, signals: seq<real>)

  datatype SelectError = NoDataForAngle(angle: real)

  /** The selection step of `ajustar_angulo`: exact equality on the angle
      column, and an error when nothing matches. */
  function Select(rows: seq<Row>, angle: real): (r: Result<Selection, SelectError>)
    ensures r.Success? <==> angle in Angles(rows)
    ensures r.Failure? ==> r.error == NoDataForAngle(angle)
    ensures r.Success? ==>
      && |r.value.fields| == |r.value.signals| == |Matching(rows, angle)|
      && |r.value.fields| == multiset(Angles(rows))[angle]
      && forall i :: 0 <= i < |r.value.fields| ==>
           Matching(rows, angle)[i] == Row(r.value.fields[i], angle, r.value.signals[i])
  {
    var m := Matching(rows, angle);
    MatchingPresent(rows, angle);
    if m == [] then Failure(NoDataForAngle(angle))
    else Success(Selection(Fields(m), Signals(m)))
  }

  /** Some row matches exactly when the angle occurs in the angle column,
      and as many rows match as it occurs. */
  lemma MatchingPresent(rows: seq<Row>, angle: real)
    ensures Matching(rows, angle) != [] <==> angle in Angles(rows)
    ensures |Matching(rows, angle)| == multiset(Angles(rows))[angle]
  {
    MatchingCount(rows, angle);
  }

  function Fields(rows: seq<Row>): (s: seq<real>)
    ensures |s| == |rows|
    ensures forall i :: 0 <= i < |rows| ==> s[i] == rows[i].field
  {
    seq(|rows|, i requires 0 <= i < |rows| => rows[i].field)
  }

  function Signals(rows: seq<Row>): (s: seq<real>)
    ensures |s| == |rows|
    ensures forall i :: 0 <= i < |rows| ==> s[i] == rows[i].signal
  {
    seq(|rows|, i requires 0 <= i < |rows| => rows[i].signal)
  }

  // ---------------------------------------------------------------------
  // Properties of loading and selection.

  /** Lines are read independently and in order. */
  lemma {:induction false} ParseLinesAppend(a: seq<string>, b: seq<string>)
    ensures ParseLines(a + b) == ParseLines(a) + ParseLines(b)
    decreases |b|
  {
    if b == [] {
      assert a + b == a;
    } else {
      var b' := b[..|b| - 1];
      assert (a + b)[..|a + b| - 1] == a + b';
      assert (a + b)[|a + b| - 1] == b[|b| - 1];
      ParseLinesAppend(a, b');
    }
  }

  /** Every row comes from a line of the file. */
  lemma {:induction false} ParseLinesSound(lines: seq<string>, r: Row)
    requires r in ParseLines(lines)
    ensures exists l :: l in lines && ParseLine(l) == Some(r)
  {
    var init, last := lines[..|lines| - 1], lines[|lines| - 1];
    if r in ParseLines(init) {
      ParseLinesSound(init, r);
      var l :| l in init && ParseLine(l) == Some(r);
      assert l in lines;
    } else {
      assert ParseLine(last) == Some(r);
    }
  }

  /** Every line that yields a row contributes it. */
  lemma {:induction false} ParseLinesComplete(lines: seq<string>, i: nat)
    requires i < |lines| && ParseLine(lines[i]).Some?
    ensures ParseLine(lines[i]).value in ParseLines(lines)
  {
    var init, last := lines[..|lines| - 1], lines[|lines| - 1];
    var tail := if ParseLine(last).Some? then [ParseLine(last).value] else [];
    assert ParseLines(lines) == ParseLines(init) + tail;
    if i < |lines| - 1 {
      assert lines[i] == init[i];
      ParseLinesComplete(init, i);
    } else {
      assert ParseLine(lines[i]).value in tail;
    }
  }

  /** No row is loaded exactly when no line yields one. */
  lemma ParseLinesEmpty(lines: seq<string>)
    ensures ParseLines(lines) == [] <==> forall k :: 0 <= k < |lines| ==> ParseLine(lines[k]).None?
  {
    if ParseLines(lines) != [] {
      ParseLinesSound(lines, ParseLines(lines)[0]);
    } else {
      forall k | 0 <= k < |lines|
        ensures ParseLine(lines[k]).None?
      {
        if ParseLine(lines[k]).Some? {
          ParseLinesComplete(lines, k);
        }
      }
    }
  }

  /** Selection keeps file order: the points of a concatenation are the
      points of each part, one after the other. */
  lemma {:induction false} MatchingAppend(a: seq<Row>, b: seq<Row>, angle: real)
    ensures Matching(a + b, angle) == Matching(a, angle) + Matching(b, angle)
    decreases |b|
  {
    if b == [] {
      assert a + b == a;
    } else {
      var b' := b[..|b| - 1];
      assert (a + b)[..|a + b| - 1] == a + b';
      MatchingAppend(a, b', angle);
    }
  }

  /** Every angle the loader reports can be selected, and selects at least
      one point. */
  lemma LoadedAnglesSelectable(lines: seq<string>, angle: real)
    requires Load(lines).Success? && angle in Load(lines).value.angles
    ensures Select(Load(lines).value.rows, angle).Success?
    ensures |Select(Load(lines).value.rows, angle).value.fields| > 0
  {
    var rows := Load(lines).value.rows;
    assert angle in Angles(rows);
    assert angle in multiset(Angles(rows));
  }

  lemma IsSkippedReplace(line: string)
    ensures IsSkipped(ReplaceChar(line, ',', '.')) == IsSkipped(line)
  {
    StripReplace(line, ',', '.');
    var t := Strip(line);
    StartsWithReplace(t, "Filename:", ',', '.');
    StartsWithReplace(t, "#", ',', '.');
  }

  lemma RowOfTokensReplace(ws: seq<string>)
    ensures RowOfTokens(ReplaceEach(ws, ',', '.')) == RowOfTokens(ws)
  {
    if |ws| >= 3 {
      ReplaceIdempotent(ws[0], ',', '.');
      ReplaceIdempotent(ws[1], ',', '.');
      ReplaceIdempotent(ws[2], ',', '.');
    }
  }

  lemma TokensReplace(line: string)
    ensures RowOfTokens(Split(ReplaceChar(line, ',', '.'))) == RowOfTokens(Split(line))
  {
    SplitReplace(line, ',', '.');
    RowOfTokensReplace(Split(line));
  }

  lemma SameSkipSameTokens(a: string, b: string)
    requires IsSkipped(a) == IsSkipped(b)
    requires RowOfTokens(Split(a)) == RowOfTokens(Split(b))
    ensures ParseLine(a) == ParseLine(b)
  {
  }

  /** A line written as words is a header exactly when its first word
      starts like one, and yields a row only from its first three words:
      with fewer it yields nothing, and words after the third play no part. */
  lemma WordLine(ws: seq<string>)
    requires forall i :: 0 <= i < |ws| ==> IsWord(ws[i])
    ensures IsSkipped(JoinWords(ws)) <==>
      ws == [] || StartsWith(ws[0], "Filename:") || StartsWith(ws[0], "#")
    ensures |ws| < 3 ==> ParseLine(JoinWords(ws)) == None
    ensures |ws| >= 3 ==> ParseLine(JoinWords(ws)) == ParseLine(JoinWords(ws[..3]))
  {
    if ws == [] {
      assert JoinWords(ws) == [];
      assert Strip(JoinWords(ws)) == [];
    } else {
      WordLineHead(ws);
    }
    if |ws| < 3 {
      SplitJoin(ws);
    } else {
      WordLineTail(ws);
    }
  }

  /** Words after the third play no part in the row of a line of words. */
  lemma WordLineTail(ws: seq<string>)
    requires |ws| >= 3 && forall i :: 0 <= i < |ws| ==> IsWord(ws[i])
    ensures ParseLine(JoinWords(ws)) == ParseLine(JoinWords(ws[..3]))
  {
    var ws3 := ws[..3];
    var a, b := JoinWords(ws), JoinWords(ws3);
    assert IsSkipped(a) == IsSkipped(b) by {
      WordLineHead(ws);
      WordLineHead(ws3);
      assert ws3[0] == ws[0];
    }
    assert RowOfTokens(Split(a)) == RowOfTokens(Split(b)) by {
      SplitJoin(ws);
      SplitJoin(ws3);
      SameFirstThree(ws, ws3);
    }
    SameSkipSameTokens(JoinWords(ws), JoinWords(ws3));
  }

  lemma SameFirstThree(ws: seq<string>, vs: seq<string>)
    requires |ws| >= 3 && |vs| >= 3
    requires ws[0] == vs[0] && ws[1] == vs[1] && ws[2] == vs[2]
    ensures RowOfTokens(ws) == RowOfTokens(vs)
  {
  }

  lemma WordLineHead(ws: seq<string>)
    requires |ws| > 0 && forall i :: 0 <= i < |ws| ==> IsWord(ws[i])
    ensures IsSkipped(JoinWords(ws)) <==> StartsWith(ws[0], "Filename:") || StartsWith(ws[0], "#")
  {
    var line := JoinWords(ws);
    JoinWordsEdges(ws);
    StripUntrimmed(line);
    assert Strip(line) == line;
    HeaderMarksWordLike();
    StartsWithWords(ws, "Filename:");
    StartsWithWords(ws, "#");
  }

  lemma HeaderMarksWordLike()
    ensures forall k :: 0 <= k < |"Filename:"| ==> !IsSpace("Filename:"[k])
    ensures forall k :: 0 <= k < |"#"| ==> !IsSpace("#"[k])
  {
  }

  /** A decimal comma and a decimal point are read alike: replacing every
      comma of a line by a point does not change what the line yields. */
  lemma ParseLineCommaInsensitive(line: string)
    ensures ParseLine(ReplaceChar(line, ',', '.')) == ParseLine(line)
  {
    IsSkippedReplace(line);
    TokensReplace(line);
    SameSkipSameTokens(line, ReplaceChar(line, ',', '.'));
  }

  /** A line written as three integers separated by spaces, followed by any
      further tokens, is read back as exactly that row. */
  lemma ParseWrittenLine(field: int, angle: int, signal: int, extra: seq<string>)
    requires forall i :: 0 <= i < |extra| ==> IsWord(extra[i])
    ensures ParseLine(JoinWords([Decimal.RenderInt(field), Decimal.RenderInt(angle),
                                 Decimal.RenderInt(signal)] + extra))
            == Some(Row(field as real, angle as real, signal as real))
  {
    WrittenIntIsWord(field);
    WrittenIntIsWord(angle);
    WrittenIntIsWord(signal);
    WrittenIntReadBack(field);
    WrittenIntReadBack(angle);
    WrittenIntReadBack(signal);
    ParseTokenLine(Decimal.RenderInt(field), Decimal.RenderInt(angle), Decimal.RenderInt(signal),
                   extra, Row(field as real, angle as real, signal as real));
  }

  lemma ParseTokenLine(f: string, a: string, s: string, extra: seq<string>, row: Row)
    requires IsWord(f) && IsWord(a) && IsWord(s)
    requires forall i :: 0 <= i < |extra| ==> IsWord(extra[i])
    requires f[0] == '-' || Decimal.IsDigit(f[0])
    requires ParseNumber(f) == Some(row.field)
    requires ParseNumber(a) == Some(row.angle)
    requires ParseNumber(s) == Some(row.signal)
    ensures ParseLine(JoinWords([f, a, s] + extra)) == Some(row)
  {
    var ws := [f, a, s] + extra;
    var line := JoinWords(ws);
    assert ws[0] == f && ws[1] == a && ws[2] == s;
    assert RowOfTokens(ws) == Some(row);
    assert !IsSkipped(line) && Split(line) == ws by {
      ThreeWords(f, a, s);
      WordsConcat([f, a, s], extra);
      WrittenLineNotSkipped(ws);
      SplitJoin(ws);
    }
    LineOfTokens(line, ws);
  }

  lemma LineOfTokens(line: string, ws: seq<string>)
    requires !IsSkipped(line) && Split(line) == ws
    ensures ParseLine(line) == RowOfTokens(ws)
  {
  }

  lemma ThreeWords(f: string, a: string, s: string)
    requires IsWord(f) && IsWord(a) && IsWord(s)
    ensures forall i :: 0 <= i < |[f, a, s]| ==> IsWord([f, a, s][i])
  {
  }

  lemma WordsConcat(a: seq<string>, b: seq<string>)
    requires forall i :: 0 <= i < |a| ==> IsWord(a[i])
    requires forall i :: 0 <= i < |b| ==> IsWord(b[i])
    ensures forall i :: 0 <= i < |a + b| ==> IsWord((a + b)[i])
  {
    forall i | 0 <= i < |a + b|
      ensures IsWord((a + b)[i])
    {
      if i >= |a| {
        assert (a + b)[i] == b[i - |a|];
      }
    }
  }

  /** A line whose first token starts with a sign or a digit is neither blank
      nor a header. */
  lemma WrittenLineNotSkipped(ws: seq<string>)
    requires |ws| > 0 && IsWord(ws[0])
    requires ws[0][0] == '-' || Decimal.IsDigit(ws[0][0])
    ensures !IsSkipped(JoinWords(ws))
  {
    var line := JoinWords(ws);
    JoinWordsHead(ws);
    StripKeepsHead(line);
    var t := Strip(line);
    assert t[0] == ws[0][0];
  }

  lemma WrittenIntReadBack(i: int)
    ensures ParseNumber(Decimal.RenderInt(i)) == Some(i as real)
  {
    WrittenIntIsWord(i);
    ReplaceAbsent(Decimal.RenderInt(i), ',', '.');
    Decimal.ParseRenderInt(i);
  }

  lemma WrittenIntIsWord(i: int)
    ensures IsWord(Decimal.RenderInt(i))
    ensures forall k :: 0 <= k < |Decimal.RenderInt(i)| ==> Decimal.RenderInt(i)[k] != ','
    ensures Decimal.RenderInt(i)[0] == '-' || Decimal.IsDigit(Decimal.RenderInt(i)[0])
  {
    var s := Decimal.RenderInt(i);
    if i < 0 {
      assert forall k :: 1 <= k < |s| ==> Decimal.IsDigit(s[k]) by {
        assert s[1..] == Decimal.Render(-i);
        forall k | 1 <= k < |s|
          ensures Decimal.IsDigit(s[k])
        {
          assert s[k] == s[1..][k - 1];
        }
      }
    }
  }

  lemma JoinWordsHead(ws: seq<string>)
    requires |ws| > 0 && |ws[0]| > 0
    ensures |JoinWords(ws)| > 0 && JoinWords(ws)[0] == ws[0][0]
  {
  }

  lemma StripKeepsHead(s: string)
    requires |s| > 0 && !IsSpace(s[0])
    ensures |Strip(s)| > 0 && Strip(s)[0] == s[0]
  {
    StripSlice(s);
    var r := Strip(s);
    var i :| 0 <= i <= |s| - |r| && r == s[i..i + |r|] && AllSpace(s[..i]) && AllSpace(s[i + |r|..]);
  }
}

=== FILE: realmath.dfy ===
/** Real-number helpers shared by the numeric parts of the model: `abs`,
    squaring, and the small facts about products and quotients the
    line-shape and statistics proofs rely on. */
module RealMath {

  /** Python's `abs` on a float. */
  function Abs(v: real): (r: real)
    ensures r >= 0.0
    ensures r == v || r == -v
  {
    if v < 0.0 then -v else v
  }

  /** A product kept behind a function symbol, so that a term multiplied by
      itself stays one atom for the solver. */
  function Mul(a: real, b: real): real {
    a * b
  }

  lemma MulPositive(a: real, b: real)
    requires a > 0.0 && b > 0.0
    ensures Mul(a, b) > 0.0
  {
  }

  lemma MulNegate(a: real, b: real)
    ensures Mul(-a, -b) == Mul(a, b)
  {
  }

  lemma SquareSign(v: real)
    ensures Mul(v, v) >= 0.0
    ensures Mul(v, v) == 0.0 <==> v == 0.0
  {
    if v > 0.0 {
      MulPositive(v, v);
    } else if v < 0.0 {
      MulPositive(-v, -v);
      MulNegate(v, v);
    }
  }

  /** `v ** 2`. */
  function Square(v: real): (r: real)
    ensures r >= 0.0
    ensures r == 0.0 <==> v == 0.0
  {
    SquareSign(v);
    Mul(v, v)
  }

  lemma SquareEven(v: real)
    ensures Square(-v) == Square(v)
  {
    MulNegate(v, v);
  }

  /** The sign of a quotient by a positive number is the sign of the
      dividend. */
  lemma DivSign(n: real, d: real)
    requires d > 0.0
    ensures n / d > 0.0 <==> n > 0.0
    ensures n / d < 0.0 <==> n < 0.0
    ensures n / d == 0.0 <==> n == 0.0
    ensures (-n) / d == -(n / d)
  {
  }

  lemma DivUnit(s: real, t: real)
    requires 0.0 <= s <= t && t > 0.0
    ensures 0.0 <= s / t <= 1.0
  {
  }

  lemma ScaleUnit(m: real, q: real)
    requires m >= 0.0 && 0.0 <= q <= 1.0
    ensures 0.0 <= m * q <= m
  {
  }

  lemma MulDiv(m: real, s: real, t: real)
    requires t != 0.0
    ensures (m * s) / t == m * (s / t)
  {
  }

  lemma SquareExpand(u: real, w: real)
    ensures Square(u - w) == Square(u) + Square(w) - 2.0 * (w * u)
    ensures Square(u + w) == Square(u) + Square(w) + 2.0 * (w * u)
  {
  }

  /** `2 |w u| <= u^2 + w^2`. */
  lemma TwiceProductBound(u: real, w: real)
    ensures 2.0 * (w * u) <= Square(u) + Square(w)
    ensures -(2.0 * (w * u)) <= Square(u) + Square(w)
  {
    SquareExpand(u, w);
    assert Square(u - w) >= 0.0;
    assert Square(u + w) >= 0.0;
  }

  lemma HalfBound(k: real, t: real)
    requires t > 0.0 && 2.0 * k <= t && -(2.0 * k) <= t
    ensures -0.5 <= k / t <= 0.5
  {
  }

  lemma ScaleHalf(n: real, q: real)
    requires -0.5 <= q <= 0.5
    ensures -Abs(n) / 2.0 <= n * q <= Abs(n) / 2.0
  {
    if n >= 0.0 {
      ScaleNonNegativeHalf(n, q);
    } else {
      ScaleNonNegativeHalf(-n, q);
      assert n * q == -((-n) * q);
    }
  }

  lemma QuotientHalfBound(n: real, k: real, t: real)
    requires t > 0.0 && 2.0 * k <= t && -(2.0 * k) <= t
    ensures -Abs(n) / 2.0 <= n * k / t <= Abs(n) / 2.0
  {
    HalfBound(k, t);
    MulDiv(n, k, t);
    ScaleHalf(n, k / t);
  }

  lemma DivSelf(t: real)
    requires t != 0.0
    ensures t / t == 1.0
  {
  }

  lemma ScaleNonNegativeHalf(m: real, q: real)
    requires m >= 0.0 && -0.5 <= q <= 0.5
    ensures -m / 2.0 <= m * q <= m / 2.0
  {
    assert -m * 0.5 <= m * q <= m * 0.5;
  }

  /** A quotient whose dividend lies within the divisor's magnitude lies in
      [-1, 1]. */
  lemma DivBound(n: real, d: real)
    requires d > 0.0 && -d <= n <= d
    ensures -1.0 <= n / d <= 1.0
  {
    var q := n / d;
    assert q * d == n;
  }

  /** Dividing by a positive number keeps order, both ways. */
  lemma DivMonotone(m: real, n: real, d: real)
    requires d > 0.0
    ensures m < n <==> m / d < n / d
    ensures m == n <==> m / d == n / d
  {
    DivSign(n - m, d);
    assert (n - m) / d == n / d - m / d;
  }

  /** `n * (t / n) == t`. */
  lemma MulDivCancel(n: real, t: real)
    requires n != 0.0
    ensures n * (t / n) == t
  {
  }
}

=== FILE: stats.dfy ===
/** Column statistics of the hysteresis and resistance analyses: the largest
    and smallest value, the min-max normalisation of a magnetisation column
    to [-1, 1], and the centring of a resistance column on its mean. */
module Stats {
  import opened Fallible
  import opened RealMath

  /** `max(s)`. */
  function Max(s: seq<real>): (m: real)
    requires |s| > 0
    ensures m in s
    ensures forall i :: 0 <= i < |s| ==> s[i] <= m
  {
    if |s| == 1 then s[0]
    else
      var rest := Max(s[1..]);
      assert rest in s;
      if s[0] >= rest then s[0] else rest
  }

  /** `min(s)`. */
  function Min(s: seq<real>): (m: real)
    requires |s| > 0
    ensures m in s
    ensures forall i :: 0 <= i < |s| ==> m <= s[i]
  {
    if |s| == 1 then s[0]
    else
      var rest := Min(s[1..]);
      assert rest in s;
      if s[0] <= rest then s[0] else rest
  }

  /** The largest value is the one every value is at most and that occurs. */
  lemma MaxUnique(s: seq<real>, m: real)
    requires m in s && forall i :: 0 <= i < |s| ==> s[i] <= m
    ensures Max(s) == m
  {
  }

  lemma MinUnique(s: seq<real>, m: real)
    requires m in s && forall i :: 0 <= i < |s| ==> m <= s[i]
    ensures Min(s) == m
  {
  }

  // ---------------------------------------------------------------------
  // Min-max normalisation.

  datatype NormError =
    | EmptyColumn // `max([])` raises ValueError
    | ZeroRange   // every value equal: division by zero

  /** `(2 v - (max + min)) / (max - min)` for one value. */
  function Scaled(v: real, lo: real, hi: real): (r: real)
    requires lo < hi
    ensures lo <= v <= hi ==> -1.0 <= r <= 1.0
  {
    var n := 2.0 * v - (hi + lo);
    assert lo <= v <= hi ==> -1.0 <= n / (hi - lo) <= 1.0 by {
      if lo <= v <= hi {
        DivBound(n, hi - lo);
      }
    }
    n / (hi - lo)
  }

  /** The normalisation of a magnetisation column. */
  function Normalize(s: seq<real>): (r: Result<seq<real>, NormError>)
    ensures r.Failure? <==> s == [] || Max(s) == Min(s)
    ensures r.Failure? ==> (r.error == EmptyColumn <==> s == [])
    ensures r.Success? ==> |r.value| == |s|
    ensures r.Success? ==> forall i :: 0 <= i < |s| ==> -1.0 <= r.value[i] <= 1.0
  {
    if s == [] then Failure(EmptyColumn)
    else
      var hi, lo := Max(s), Min(s);
      if hi == lo then Failure(ZeroRange)
      else
        assert lo <= s[0] <= hi;
        Success(seq(|s|, i requires 0 <= i < |s| => Scaled(s[i], lo, hi)))
  }

  /** One value: it scales to -1 exactly at the bottom of the range and to 1
      exactly at the top. */
  lemma ScaledEnds(v: real, lo: real, hi: real)
    requires lo < hi
    ensures Scaled(v, lo, hi) == -1.0 <==> v == lo
    ensures Scaled(v, lo, hi) == 1.0 <==> v == hi
  {
    var n, d := 2.0 * v - (hi + lo), hi - lo;
    DivSelf(d);
    DivSign(d, d);
    assert (-d) / d == -(d / d);
    DivMonotone(n, -d, d);
    DivMonotone(n, d, d);
  }

  /** On [-1, 1] scaling is the identity. */
  lemma ScaledUnit(v: real)
    ensures Scaled(v, -1.0, 1.0) == v
  {
  }

  /** Scaling keeps the order of two values, strictly and both ways. */
  lemma ScaledOrder(v: real, w: real, lo: real, hi: real)
    requires lo < hi
    ensures v < w <==> Scaled(v, lo, hi) < Scaled(w, lo, hi)
    ensures v == w <==> Scaled(v, lo, hi) == Scaled(w, lo, hi)
  {
    DivMonotone(2.0 * v - (hi + lo), 2.0 * w - (hi + lo), hi - lo);
  }

  /** The value at `i` of a successful normalisation. */
  lemma NormalizeAt(s: seq<real>, i: int)
    requires Normalize(s).Success? && 0 <= i < |s|
    ensures Min(s) < Max(s)
    ensures Normalize(s).value[i] == Scaled(s[i], Min(s), Max(s))
  {
    assert Min(s) <= s[0] <= Max(s);
  }

  /** The smallest value becomes -1 and the largest 1, and only they do. */
  lemma NormalizeExtremes(s: seq<real>)
    requires Normalize(s).Success?
    ensures forall i :: 0 <= i < |s| ==> (Normalize(s).value[i] == -1.0 <==> s[i] == Min(s))
    ensures forall i :: 0 <= i < |s| ==> (Normalize(s).value[i] == 1.0 <==> s[i] == Max(s))
  {
    forall i | 0 <= i < |s|
      ensures Normalize(s).value[i] == -1.0 <==> s[i] == Min(s)
      ensures Normalize(s).value[i] == 1.0 <==> s[i] == Max(s)
    {
      NormalizeAt(s, i);
      ScaledEnds(s[i], Min(s), Max(s));
    }
  }

  /** Normalising keeps the order of the values, strictly and both ways. */
  lemma NormalizeOrder(s: seq<real>, i: int, j: int)
    requires Normalize(s).Success? && 0 <= i < |s| && 0 <= j < |s|
    ensures s[i] < s[j] <==> Normalize(s).value[i] < Normalize(s).value[j]
    ensures s[i] == s[j] <==> Normalize(s).value[i] == Normalize(s).value[j]
  {
    NormalizeAt(s, i);
    NormalizeAt(s, j);
    ScaledOrder(s[i], s[j], Min(s), Max(s));
  }

  /** A normalised column is its own normalisation. */
  lemma NormalizeIdempotent(s: seq<real>)
    requires Normalize(s).Success?
    ensures Normalize(Normalize(s).value) == Normalize(s)
  {
    var r := Normalize(s).value;
    NormalizeExtremes(s);
    var a := IndexOf(s, Max(s));
    var b := IndexOf(s, Min(s));
    assert r[a] == 1.0 && r[b] == -1.0;
    assert 1.0 in r && -1.0 in r;
    MaxUnique(r, 1.0);
    MinUnique(r, -1.0);
    var t := Normalize(r).value;
    forall i | 0 <= i < |r|
      ensures t[i] == r[i]
    {
      NormalizeAt(r, i);
      ScaledUnit(r[i]);
    }
    assert t == r;
    assert Normalize(r) == Success(t);
  }

  /** A position of a value that occurs. */
  function IndexOf(s: seq<real>, v: real): (i: nat)
    requires v in s
    ensures i < |s| && s[i] == v
  {
    if s[0] == v then 0 else 1 + IndexOf(s[1..], v)
  }

  // ---------------------------------------------------------------------
  // Mean centring.

  function Sum(s: seq<real>): real {
    if s == [] then 0.0 else s[0] + Sum(s[1..])
  }

  /** `np.mean(s)`. */
  function Mean(s: seq<real>): real
    requires |s| > 0
  {
    Sum(s) / (|s| as real)
  }

  /** Every value less `c`. */
  function Shift(s: seq<real>, c: real): (r: seq<real>)
    ensures |r| == |s|
    ensures forall i :: 0 <= i < |s| ==> r[i] + c == s[i]
  {
    seq(|s|, i requires 0 <= i < |s| => s[i] - c)
  }

  lemma {:induction false} SumShift(s: seq<real>, c: real)
    ensures Sum(Shift(s, c)) == Sum(s) - (|s| as real) * c
  {
    if s != [] {
      assert Shift(s, c)[1..] == Shift(s[1..], c);
      SumShift(s[1..], c);
    }
  }

  /** `[y - media for y in colB]` with `media = np.mean(colB)`. An empty
      column stays empty. */
  function MeanCenter(s: seq<real>): (r: seq<real>)
    ensures |r| == |s|
    ensures forall i, j :: 0 <= i < |s| && 0 <= j < |s| ==> r[i] - r[j] == s[i] - s[j]
  {
    if s == [] then [] else Shift(s, Mean(s))
  }

  /** A centred column sums, and so averages, to zero. */
  lemma MeanCenterSumZero(s: seq<real>)
    ensures Sum(MeanCenter(s)) == 0.0
  {
    if s != [] {
      SumShift(s, Mean(s));
      MulDivCancel(|s| as real, Sum(s));
    }
  }

  /** Centring a centred column changes nothing. */
  lemma MeanCenterIdempotent(s: seq<real>)
    ensures MeanCenter(MeanCenter(s)) == MeanCenter(s)
  {
    var r := MeanCenter(s);
    if s != [] {
      MeanCenterSumZero(s);
      assert Mean(r) == 0.0;
      assert Shift(r, 0.0) == r;
    }
  }
}

=== FILE: sweep.dfy ===
/** The FMR angle sweep of the library (`FMR`): the smallest angle is fitted
    in an interactive loop driven by menu answers, then every further angle,
    in ascending order, is fitted starting from the parameters stored for
    the angle before it. Console answers and typed-in seeds arrive as a
    sequence of turns; plotting and file output are not modelled.

    The fit of one angle is passed in as an `Attempter` (in the program it is
    always `AttemptOn(rows, fit)`), and each fit is stored with `Record`, so
    that one step of the sweep is exactly `FitAngle`. */
module Sweep {
  import opened Fallible
  import opened Text
  import opened Loader
  import opened Lineshape
  import opened Fitting

  // ---------------------------------------------------------------------
  // The automatic chain over ascending angles.

  /** One fitted angle of a chain: the seed it started from and the entry
      stored for it. */
  datatype Link = Link(angle: real, seed: Seed, entry: Entry)

  /** A chain's end: the store, the angles fitted so far, and the error that
      stopped it, if any. */
  datatype Run = Run(store: Store, links: seq<Link>, failure: Option<FitError>)

  /** Fits `angles` in order; the first starts from `seed`, each later one
      from the stored parameters of the one before. The first failure stops
      the chain. */
  function Chain(attempt: Attempter, angles: seq<real>, seed: Seed, store: Store): (run: Run)
    ensures |run.links| <= |angles|
    ensures run.failure.None? <==> |run.links| == |angles|
    ensures forall i :: 0 <= i < |run.links| ==> run.links[i].angle == angles[i]
    decreases |angles|
  {
    if angles == [] then Run(store, [], None)
    else
      match Record(store, angles[0], attempt(angles[0], seed))
      case Failure(e) => Run(store, [], Some(e))
      case Success(next) =>
        var e := next[angles[0]];
        var rest := Chain(attempt, angles[1..], AsSeed(e.params), next);
        Run(rest.store, [Link(angles[0], seed, e)] + rest.links, rest.failure)
  }

  /** The angles a chain has fitted. */
  function AnglesOf(links: seq<Link>): set<real> {
    set l | l in links :: l.angle
  }

  lemma AnglesOfCons(l: Link, links: seq<Link>)
    ensures AnglesOf([l] + links) == {l.angle} + AnglesOf(links)
  {
    assert forall x :: x in [l] + links <==> x == l || x in links;
  }

  /** The seed chain: the first angle starts from the given seed and every
      later angle from the parameters fitted for the angle before it. */
  lemma {:induction false} ChainSeeds(attempt: Attempter, angles: seq<real>, seed: Seed, store: Store)
    ensures var run := Chain(attempt, angles, seed, store);
      && (|run.links| > 0 ==> run.links[0].seed == seed)
      && forall i :: 0 <= i < |run.links| - 1 ==> run.links[i + 1].seed == AsSeed(run.links[i].entry.params)
    decreases |angles|
  {
    if angles != [] {
      var r := Record(store, angles[0], attempt(angles[0], seed));
      if r.Success? {
        var e := r.value[angles[0]];
        ChainSeeds(attempt, angles[1..], AsSeed(e.params), r.value);
      }
    }
  }

  /** A link records the outcome of fitting its angle from its seed. */
  predicate Fitted(attempt: Attempter, l: Link) {
    attempt(l.angle, l.seed) == Success(l.entry)
  }

  /** Every link of a chain is the outcome of fitting its angle from its
      seed. */
  lemma {:induction false} ChainFits(attempt: Attempter, angles: seq<real>, seed: Seed, store: Store)
    ensures forall l :: l in Chain(attempt, angles, seed, store).links ==> Fitted(attempt, l)
    decreases |angles|
  {
    if angles != [] {
      var r := Record(store, angles[0], attempt(angles[0], seed));
      if r.Success? {
        var e := r.value[angles[0]];
        var link := Link(angles[0], seed, e);
        var rest := Chain(attempt, angles[1..], AsSeed(e.params), r.value);
        ChainFits(attempt, angles[1..], AsSeed(e.params), r.value);
        assert Chain(attempt, angles, seed, store).links == [link] + rest.links;
        assert Fitted(attempt, link);
      }
    }
  }

  /** The seed a chain has reached after `links`: the given one before any
      fit, afterwards the parameters of the last fit. */
  function Reached(seed: Seed, links: seq<Link>): Seed {
    if links == [] then seed else AsSeed(links[|links| - 1].entry.params)
  }

  lemma ReachedCons(seed: Seed, l: Link, links: seq<Link>)
    ensures Reached(seed, [l] + links) == Reached(AsSeed(l.entry.params), links)
  {
    if links != [] {
      assert ([l] + links)[|links|] == links[|links| - 1];
    }
  }

  /** The angle a chain stopped at is the one whose fit failed, from the
      seed the chain had reached. */
  lemma {:induction false} ChainFailure(attempt: Attempter, angles: seq<real>, seed: Seed, store: Store)
    ensures var run := Chain(attempt, angles, seed, store);
      run.failure.Some? ==>
        && |run.links| < |angles|
        && attempt(angles[|run.links|], Reached(seed, run.links)) == Failure(run.failure.value)
    decreases |angles|
  {
    if angles != [] {
      var r := Record(store, angles[0], attempt(angles[0], seed));
      if r.Success? {
        var e := r.value[angles[0]];
        var link := Link(angles[0], seed, e);
        var rest := Chain(attempt, angles[1..], AsSeed(e.params), r.value);
        assert Chain(attempt, angles, seed, store) == Run(rest.store, [link] + rest.links, rest.failure);
        ChainFailure(attempt, angles[1..], AsSeed(e.params), r.value);
        ReachedCons(seed, link, rest.links);
        assert rest.failure.Some? ==> angles[1..][|rest.links|] == angles[|rest.links| + 1];
      }
    }
  }

  /** What a chain over distinct ascending angles leaves in the store: an
      entry for each fitted angle, holding that angle's fit, and the earlier
      entries of every other angle untouched. */
  lemma {:induction false} ChainStore(attempt: Attempter, angles: seq<real>, seed: Seed, store: Store)
    requires StrictlyIncreasing(angles)
    ensures var run := Chain(attempt, angles, seed, store);
      && run.store.Keys == store.Keys + AnglesOf(run.links)
      && (forall l :: l in run.links ==> run.store[l.angle] == l.entry)
      && (forall a :: a in store && a !in AnglesOf(run.links) ==> run.store[a] == store[a])
    decreases |angles|
  {
    if angles != [] {
      var r := Record(store, angles[0], attempt(angles[0], seed));
      if r.Success? {
        var e := r.value[angles[0]];
        var link := Link(angles[0], seed, e);
        var rest := Chain(attempt, angles[1..], AsSeed(e.params), r.value);
        var run := Chain(attempt, angles, seed, store);
        assert run.links == [link] + rest.links && run.store == rest.store;
        assert StrictlyIncreasing(angles[1..]);
        ChainStore(attempt, angles[1..], AsSeed(e.params), r.value);
        AnglesOfCons(link, rest.links);
        LaterAngles(angles[0], rest.links, angles);
        assert run.store[angles[0]] == e;
        forall l | l in run.links
          ensures run.store[l.angle] == l.entry
        {
          if l != link {
            assert l in rest.links;
          }
        }
      }
    }
  }

  /** Links whose angles follow a strictly ascending sequence from its second
      element never carry a smaller angle. */
  lemma LaterAngles(a: real, links: seq<Link>, angles: seq<real>)
    requires StrictlyIncreasing(angles) && |angles| > 0 && a <= angles[0]
    requires |links| <= |angles| - 1
    requires forall i :: 0 <= i < |links| ==> links[i].angle == angles[i + 1]
    ensures a !in AnglesOf(links)
  {
    forall l | l in links
      ensures l.angle != a
    {
      var j :| 0 <= j < |links| && links[j] == l;
      assert angles[0] < angles[j + 1];
    }
  }

  /** A chain that did not stop fitted its first angle from the given seed
      and every later one from the entry fitted just before it. */
  lemma ChainOrder(attempt: Attempter, angles: seq<real>, seed: Seed, store: Store)
    requires Chain(attempt, angles, seed, store).failure.None? && angles != []
    ensures var links := Chain(attempt, angles, seed, store).links;
      && attempt(angles[0], seed) == Success(links[0].entry)
      && forall i :: 1 <= i < |angles| ==>
           attempt(angles[i], AsSeed(links[i - 1].entry.params)) == Success(links[i].entry)
  {
    var links := Chain(attempt, angles, seed, store).links;
    ChainSeeds(attempt, angles, seed, store);
    ChainFits(attempt, angles, seed, store);
    assert Fitted(attempt, links[0]);
    forall i | 1 <= i < |angles|
      ensures attempt(angles[i], AsSeed(links[i - 1].entry.params)) == Success(links[i].entry)
    {
      assert Fitted(attempt, links[i]);
    }
  }

  /** A chain that did not stop has fitted every one of its angles. */
  lemma ChainCovers(attempt: Attempter, angles: seq<real>, seed: Seed, store: Store)
    requires Chain(attempt, angles, seed, store).failure.None?
    ensures AnglesOf(Chain(attempt, angles, seed, store).links) == set a | a in angles
  {
    var links := Chain(attempt, angles, seed, store).links;
    forall a
      ensures a in AnglesOf(links) <==> a in angles
    {
      if a in AnglesOf(links) {
        var l :| l in links && l.angle == a;
        var j :| 0 <= j < |links| && links[j] == l;
      }
      if a in angles {
        var j :| 0 <= j < |angles| && angles[j] == a;
        assert links[j] in links;
      }
    }
  }

  /** Every angle after the first holds the fit that started from the
      parameters stored for the angle before it. */
  predicate Linked(attempt: Attempter, angles: seq<real>, store: Store) {
    forall i :: 1 <= i < |angles| ==> LinkedAt(attempt, angles, store, i)
  }

  predicate LinkedAt(attempt: Attempter, angles: seq<real>, store: Store, i: int)
    requires 1 <= i < |angles|
  {
    && angles[i - 1] in store && angles[i] in store
    && attempt(angles[i], AsSeed(store[angles[i - 1]].params)) == Success(store[angles[i]])
  }

  lemma AscendingCons(prev: real, angles: seq<real>)
    requires StrictlyIncreasing([prev] + angles)
    ensures StrictlyIncreasing(angles)
    ensures angles != [] ==> prev < angles[0]
  {
    var s := [prev] + angles;
    forall i, j | 0 <= i < j < |angles|
      ensures angles[i] < angles[j]
    {
      assert angles[i] == s[i + 1] && angles[j] == s[j + 1];
    }
    if angles != [] {
      assert s[0] == prev && s[1] == angles[0];
    }
  }

  /** The first step of a chain seeded from the stored fit of a smaller
      angle links that angle to the chain's first one, and the rest of the
      chain leaves both entries alone. */
  lemma FirstLink(attempt: Attempter, prev: real, angles: seq<real>, store: Store)
    requires StrictlyIncreasing(angles) && angles != [] && prev < angles[0] && prev in store
    requires Chain(attempt, angles, AsSeed(store[prev].params), store).failure.None?
    ensures LinkedAt(attempt, [prev] + angles, Chain(attempt, angles, AsSeed(store[prev].params), store).store, 1)
  {
    var seed := AsSeed(store[prev].params);
    var next := Record(store, angles[0], attempt(angles[0], seed)).value;
    var e := next[angles[0]];
    var rest := Chain(attempt, angles[1..], AsSeed(e.params), next);
    assert StrictlyIncreasing(angles[1..]);
    ChainStore(attempt, angles[1..], AsSeed(e.params), next);
    LaterAngles(angles[0], rest.links, angles);
    LaterAngles(prev, rest.links, angles);
    assert rest.store[prev] == store[prev];
    assert rest.store[angles[0]] == e;
  }

  /** A completed chain seeded from the stored fit of a smaller angle links
      that angle and all of its own. */
  lemma {:induction false} ChainLinked(attempt: Attempter, prev: real, angles: seq<real>, store: Store)
    requires StrictlyIncreasing([prev] + angles) && prev in store
    requires Chain(attempt, angles, AsSeed(store[prev].params), store).failure.None?
    ensures Linked(attempt, [prev] + angles, Chain(attempt, angles, AsSeed(store[prev].params), store).store)
    decreases |angles|
  {
    if angles != [] {
      AscendingCons(prev, angles);
      var next := Record(store, angles[0], attempt(angles[0], AsSeed(store[prev].params))).value;
      var final := Chain(attempt, angles, AsSeed(store[prev].params), store).store;
      assert final == Chain(attempt, angles[1..], AsSeed(next[angles[0]].params), next).store;
      assert [angles[0]] + angles[1..] == angles;
      ChainLinked(attempt, angles[0], angles[1..], next);
      FirstLink(attempt, prev, angles, store);
      LinkedCons(attempt, prev, angles, final);
    }
  }

  /** Linking a smaller angle to the first of a linked sequence links the
      longer sequence. */
  lemma LinkedCons(attempt: Attempter, prev: real, angles: seq<real>, store: Store)
    requires angles != []
    requires Linked(attempt, angles, store) && LinkedAt(attempt, [prev] + angles, store, 1)
    ensures Linked(attempt, [prev] + angles, store)
  {
    var all := [prev] + angles;
    forall i | 2 <= i < |all|
      ensures LinkedAt(attempt, all, store, i)
    {
      assert LinkedAt(attempt, angles, store, i - 1);
      assert all[i - 1] == angles[i - 2] && all[i] == angles[i - 1];
    }
  }

  // ---------------------------------------------------------------------
  // The interactive loop for the first angle.

  /** A menu answer, after `strip()`. */
  datatype Choice =
    | Reuse   // '1': start from the previous fit
    | Fresh   // '2': start from newly typed parameters
    | Finish  // '3': leave the loop and sweep the other angles
    | Leave   // '4': exit the program
    | Retry   // anything else: ask again

  function ChoiceOf(raw: string): Choice {
    Menu(Strip(raw))
  }

  /** The menu on an already stripped answer. */
  function Menu(t: string): Choice {
    if t == "1" then Reuse
    else if t == "2" then Fresh
    else if t == "3" then Finish
    else if t == "4" then Leave
    else Retry
  }

  /** Surrounding whitespace of an answer is irrelevant. */
  lemma ChoiceIgnoresPadding(raw: string)
    ensures ChoiceOf(Strip(raw)) == ChoiceOf(raw)
  {
    StripIdempotent(raw);
  }

  /** The four menu answers, after stripping. */
  lemma AnswerChoice(raw: string)
    ensures Strip(raw) == "1" ==> ChoiceOf(raw) == Reuse
    ensures Strip(raw) == "2" ==> ChoiceOf(raw) == Fresh
    ensures Strip(raw) == "3" ==> ChoiceOf(raw) == Finish
    ensures Strip(raw) == "4" ==> ChoiceOf(raw) == Leave
  {
    var t := Strip(raw);
    assert ChoiceOf(raw) == Menu(t);
  }

  /** One pass of the loop's console input: the menu answer as typed (read
      only when there are previous parameters) and the parameters
      `obter_parametros_iniciais` would read (used only when a fresh seed is
      asked for). */
  datatype Turn = Turn(raw: string, typed: Seed)

  /** A turn as the loop uses it: the menu choice of its answer. */
  datatype Input = Input(choice: Choice, typed: Seed)

  function Read(t: Turn): Input {
    Input(ChoiceOf(t.raw), t.typed)
  }

  function ReadAll(turns: seq<Turn>): (ins: seq<Input>)
    ensures |ins| == |turns|
  {
    if turns == [] then [] else [Read(turns[0])] + ReadAll(turns[1..])
  }

  lemma ReadAllCons(t: Turn, ts: seq<Turn>)
    ensures ReadAll([t] + ts) == [Read(t)] + ReadAll(ts)
  {
    assert ([t] + ts)[1..] == ts;
  }

  /** The loop's state: `parametros_anteriores` and the fitter's store. */
  datatype Boot = Boot(prev: Option<Params>, store: Store)

  /** The loop's invariant: before any fit nothing is stored; afterwards
      only the first angle is, and it holds the previous parameters. */
  predicate BootInv(first: real, b: Boot) {
    && (b.prev.None? ==> b.store == map[])
    && (b.prev.Some? ==> b.store.Keys == {first} && b.store[first].params == b.prev.value)
  }

  datatype Step =
    | Again(state: Boot)
    | Finished(state: Boot)
    | Exited(state: Boot)
    | Crashed(state: Boot, error: FitError)

  /** Fitting the first angle from `seed`; a success becomes the previous
      parameters of the next pass. */
  function FitFirst(attempt: Attempter, first: real, seed: Seed, b: Boot): (s: Step)
    ensures BootInv(first, b) ==> BootInv(first, s.state)
    ensures s.Again? || s.Crashed?
    ensures s.Crashed? ==> s.state == b && attempt(first, seed) == Failure(s.error)
    ensures s.Again? ==>
      && attempt(first, seed).Success?
      && s.state.prev == Some(attempt(first, seed).value.params)
  {
    match Record(b.store, first, attempt(first, seed))
    case Failure(e) => Crashed(b, e)
    case Success(next) => Again(Boot(Some(next[first].params), next))
  }

  /** One pass of the loop. Without previous parameters no menu is shown and
      a fresh seed is fitted. */
  function BootStep(attempt: Attempter, first: real, b: Boot, x: Input): (s: Step)
    ensures BootInv(first, b) ==> BootInv(first, s.state)
    ensures s.Finished? ==> s.state.prev.Some?
    ensures s.Finished? || s.Exited? ==> s.state == b
    ensures s.Again? && s.state != b ==> s.state.prev.Some?
  {
    if b.prev.None? then FitFirst(attempt, first, x.typed, b)
    else
      match x.choice
      case Reuse => FitFirst(attempt, first, AsSeed(b.prev.value), b)
      case Fresh => FitFirst(attempt, first, x.typed, b)
      case Finish => Finished(b)
      case Leave => Exited(b)
      case Retry => Again(b)
  }

  /** Why a sweep stopped early. */
  datatype Abort =
    | LoadFailed(loadError: LoadError) // the file had no numeric row
    | FitFailed(fitError: FitError)    // a fit raised
    | InputExhausted                   // the console had no more answers
    | KeyMissing(key: string)          // a stored fit lacked a name the code read

  datatype BootEnd =
    | Proceed(state: Boot)
    | Quit(state: Boot)
    | Stopped(state: Boot, reason: Abort)

  /** The whole loop over the given inputs. */
  function Bootstrap(attempt: Attempter, first: real, b: Boot, ins: seq<Input>): (e: BootEnd)
    ensures BootInv(first, b) ==> BootInv(first, e.state)
    ensures e.Proceed? ==> e.state.prev.Some?
    ensures e.Stopped? ==> !e.reason.LoadFailed?
    decreases |ins|
  {
    if ins == [] then Stopped(b, InputExhausted)
    else
      match BootStep(attempt, first, b, ins[0])
      case Again(next) => Bootstrap(attempt, first, next, ins[1..])
      case Finished(next) => Proceed(next)
      case Exited(next) => Quit(next)
      case Crashed(next, err) => Stopped(next, FitFailed(err))
  }

  /** One pass of the loop, then the rest of the input. */
  lemma BootstrapCons(attempt: Attempter, first: real, b: Boot, x: Input, xs: seq<Input>)
    ensures BootStep(attempt, first, b, x).Again? ==>
      Bootstrap(attempt, first, b, [x] + xs) == Bootstrap(attempt, first, BootStep(attempt, first, b, x).state, xs)
    ensures BootStep(attempt, first, b, x).Finished? ==>
      Bootstrap(attempt, first, b, [x] + xs) == Proceed(BootStep(attempt, first, b, x).state)
    ensures BootStep(attempt, first, b, x).Exited? ==>
      Bootstrap(attempt, first, b, [x] + xs) == Quit(BootStep(attempt, first, b, x).state)
    ensures BootStep(attempt, first, b, x).Crashed? ==>
      Bootstrap(attempt, first, b, [x] + xs)
      == Stopped(BootStep(attempt, first, b, x).state, FitFailed(BootStep(attempt, first, b, x).error))
  {
    assert ([x] + xs)[0] == x && ([x] + xs)[1..] == xs;
  }

  /** An answer outside the menu changes nothing: the loop simply asks
      again. */
  lemma RetryIgnored(attempt: Attempter, first: real, b: Boot, t: Turn, ts: seq<Turn>)
    requires b.prev.Some? && ChoiceOf(t.raw) == Retry
    ensures Bootstrap(attempt, first, b, ReadAll([t] + ts)) == Bootstrap(attempt, first, b, ReadAll(ts))
  {
    ReadAllCons(t, ts);
    BootstrapCons(attempt, first, b, Read(t), ReadAll(ts));
  }

  /** Before the first fit the menu is not shown: what was typed as an answer
      has no effect. */
  lemma FirstPassIgnoresAnswer(attempt: Attempter, first: real, raw1: string, raw2: string, typed: Seed,
                               ts: seq<Turn>)
    ensures Bootstrap(attempt, first, Boot(None, map[]), ReadAll([Turn(raw1, typed)] + ts))
            == Bootstrap(attempt, first, Boot(None, map[]), ReadAll([Turn(raw2, typed)] + ts))
  {
    ReadAllCons(Turn(raw1, typed), ts);
    ReadAllCons(Turn(raw2, typed), ts);
    BootstrapCons(attempt, first, Boot(None, map[]), Read(Turn(raw1, typed)), ReadAll(ts));
    BootstrapCons(attempt, first, Boot(None, map[]), Read(Turn(raw2, typed)), ReadAll(ts));
  }

  /** Answering '1' refits the first angle from the parameters it already
      holds. */
  lemma ReuseRefitsFromPrevious(attempt: Attempter, first: real, b: Boot, t: Turn)
    requires b.prev.Some? && ChoiceOf(t.raw) == Reuse
    ensures BootStep(attempt, first, b, Read(t)) == FitFirst(attempt, first, AsSeed(b.prev.value), b)
  {
  }

  /** Answers outside the menu are skipped over. */
  lemma {:induction false} MenuSkips(attempt: Attempter, first: real, b: Boot, junk: seq<Input>, rest: seq<Input>)
    requires b.prev.Some?
    requires forall i :: 0 <= i < |junk| ==> junk[i].choice == Retry
    ensures Bootstrap(attempt, first, b, junk + rest) == Bootstrap(attempt, first, b, rest)
    decreases |junk|
  {
    if junk != [] {
      MenuSkips(attempt, first, b, junk[1..], rest);
      assert junk + rest == [junk[0]] + (junk[1..] + rest);
      BootstrapCons(attempt, first, b, junk[0], junk[1..] + rest);
    } else {
      assert junk + rest == rest;
    }
  }

  /** Once there are previous parameters, answers outside the menu are
      skipped: the loop then leaves for the sweep on '3' and leaves the
      program on '4', in both cases with nothing changed, and stops for
      want of input when nothing else follows. */
  lemma MenuEnds(attempt: Attempter, first: real, b: Boot, junk: seq<Input>, x: Input, rest: seq<Input>)
    requires b.prev.Some?
    requires forall i :: 0 <= i < |junk| ==> junk[i].choice == Retry
    ensures Bootstrap(attempt, first, b, junk) == Stopped(b, InputExhausted)
    ensures x.choice == Finish ==> Bootstrap(attempt, first, b, junk + [x] + rest) == Proceed(b)
    ensures x.choice == Leave ==> Bootstrap(attempt, first, b, junk + [x] + rest) == Quit(b)
  {
    MenuSkips(attempt, first, b, junk, []);
    assert junk + [] == junk;
    assert junk + [x] + rest == junk + ([x] + rest);
    MenuSkips(attempt, first, b, junk, [x] + rest);
    BootstrapCons(attempt, first, b, x, rest);
  }

  /** Answering '1' or '2' and then '3' fits the first angle once more, from
      the previous parameters or from the typed seed, and proceeds to the
      sweep with only that fit stored; if the fit fails the loop stops with
      its error and nothing changed. */
  lemma RefitThenFinish(attempt: Attempter, first: real, b: Boot, x1: Input, x2: Input, rest: seq<Input>)
    requires BootInv(first, b) && b.prev.Some?
    requires x1.choice == Reuse || x1.choice == Fresh
    requires x2.choice == Finish
    ensures var seed := if x1.choice == Reuse then AsSeed(b.prev.value) else x1.typed;
      var r := attempt(first, seed);
      var end := Bootstrap(attempt, first, b, [x1, x2] + rest);
      && (r.Failure? ==> end == Stopped(b, FitFailed(r.error)))
      && (r.Success? ==> end == Proceed(Boot(Some(r.value.params), map[first := r.value])))
  {
    var seed := if x1.choice == Reuse then AsSeed(b.prev.value) else x1.typed;
    assert [x1, x2] + rest == [x1] + ([x2] + rest);
    assert BootStep(attempt, first, b, x1) == FitFirst(attempt, first, seed, b);
    BootstrapCons(attempt, first, b, x1, [x2] + rest);
    var r := attempt(first, seed);
    if r.Success? {
      var next := Boot(Some(r.value.params), b.store[first := r.value]);
      assert b.store[first := r.value] == map[first := r.value];
      BootstrapCons(attempt, first, next, x2, rest);
    }
  }

  /** On the first pass the typed seed is fitted; answering '3' next
      proceeds to the sweep with only that fit stored, and a failed fit
      stops the loop with its error and nothing stored. */
  lemma FirstFitThenFinish(attempt: Attempter, first: real, x1: Input, x2: Input, rest: seq<Input>)
    requires x2.choice == Finish
    ensures var r := attempt(first, x1.typed);
      var end := Bootstrap(attempt, first, Boot(None, map[]), [x1, x2] + rest);
      && (r.Failure? ==> end == Stopped(Boot(None, map[]), FitFailed(r.error)))
      && (r.Success? ==> end == Proceed(Boot(Some(r.value.params), map[first := r.value])))
  {
    assert [x1, x2] + rest == [x1] + ([x2] + rest);
    BootstrapCons(attempt, first, Boot(None, map[]), x1, [x2] + rest);
    var r := attempt(first, x1.typed);
    if r.Success? {
      BootstrapCons(attempt, first, Boot(Some(r.value.params), map[first := r.value]), x2, rest);
    }
  }

  // ---------------------------------------------------------------------
  // The whole sweep.

  datatype Halt =
    | Completed
    | ExitedByUser
    | Aborted(reason: Abort)

  /** What `FMR` leaves behind: the fitter's store and how it ended. */
  datatype FmrOutcome = FmrOutcome(store: Store, halt: Halt)

  /** The sweep once the data is loaded: the loop on the smallest angle, then
      the chain over the rest seeded from the loop's last fit. */
  function Sweep(attempt: Attempter, angles: seq<real>, turns: seq<Turn>): (out: FmrOutcome)
    requires angles != []
    ensures !(out.halt.Aborted? && out.halt.reason.LoadFailed?)
    ensures out.store.Keys <= set a | a in angles
    ensures out.halt == ExitedByUser || out.halt == Aborted(InputExhausted) ==> out.store.Keys <= {angles[0]}
  {
    match Bootstrap(attempt, angles[0], Boot(None, map[]), ReadAll(turns))
    case Quit(b) => FmrOutcome(b.store, ExitedByUser)
    case Stopped(b, r) => FmrOutcome(b.store, Aborted(r))
    case Proceed(b) =>
      var run := Chain(attempt, angles[1..], AsSeed(b.prev.value), b.store);
      ChainKeys(attempt, angles[1..], AsSeed(b.prev.value), b.store);
      assert (set a | a in angles[1..]) <= set a | a in angles by {
        ElementsCons(angles);
      }
      FmrOutcome(run.store, if run.failure.None? then Completed else Aborted(FitFailed(run.failure.value)))
  }

  /** A chain adds to the store's keys exactly the angles it fitted, all of
      them taken from its angle list. */
  lemma {:induction false} ChainKeys(attempt: Attempter, angles: seq<real>, seed: Seed, store: Store)
    ensures var run := Chain(attempt, angles, seed, store);
      && run.store.Keys == store.Keys + AnglesOf(run.links)
      && AnglesOf(run.links) <= set a | a in angles
    decreases |angles|
  {
    if angles != [] {
      var r := Record(store, angles[0], attempt(angles[0], seed));
      if r.Success? {
        var e := r.value[angles[0]];
        var link := Link(angles[0], seed, e);
        var rest := Chain(attempt, angles[1..], AsSeed(e.params), r.value);
        assert Chain(attempt, angles, seed, store) == Run(rest.store, [link] + rest.links, rest.failure);
        ChainKeys(attempt, angles[1..], AsSeed(e.params), r.value);
        AnglesOfCons(link, rest.links);
        ElementsCons(angles);
      }
    }
  }

  /** `FMR`: load the file, then sweep its angles in ascending order. */
  function Fmr(lines: seq<string>, turns: seq<Turn>, fit: Optimizer): (out: FmrOutcome)
    ensures out.halt.Aborted? && out.halt.reason.LoadFailed? <==> Load(lines).Failure?
    ensures Load(lines).Failure? ==> out.store == map[]
  {
    match Load(lines)
    case Failure(e) => FmrOutcome(map[], Aborted(LoadFailed(e)))
    case Success(ds) => Sweep(AttemptOn(ds.rows, fit), ds.angles, turns)
  }

  /** `FMR` as the code is written: once the first fit succeeds, collecting
      `Hr2` for the plot raises `KeyError`, because a stored fit holds only
      a, b, c, Hr1 and dH1; the surrounding `except` then ends the run before
      the menu is ever shown. */
  function FmrAsWritten(lines: seq<string>, turns: seq<Turn>, fit: Optimizer): (out: FmrOutcome)
    ensures out.halt != Completed && out.halt != ExitedByUser
    ensures Load(lines).Failure? ==> out == Fmr(lines, turns, fit)
  {
    match Load(lines)
    case Failure(e) => FmrOutcome(map[], Aborted(LoadFailed(e)))
    case Success(ds) =>
      if turns == [] then FmrOutcome(map[], Aborted(InputExhausted))
      else
        var s := FitFirst(AttemptOn(ds.rows, fit), ds.angles[0], turns[0].typed, Boot(None, map[]));
        if s.Crashed? then FmrOutcome(s.state.store, Aborted(FitFailed(s.error)))
        else FmrOutcome(s.state.store, Aborted(KeyMissing("Hr2")))
  }

  /** As written, a successful first fit always ends the run with the
      missing `Hr2` key, having stored that fit alone; a failed one ends it
      as the intended sweep does. */
  lemma FmrAsWrittenStopsAtFirstFit(lines: seq<string>, t: Turn, ts: seq<Turn>, fit: Optimizer)
    requires Load(lines).Success?
    ensures var ds := Load(lines).value;
      var r := Attempt(ds.rows, ds.angles[0], t.typed, fit);
      && (r.Success? ==> FmrAsWritten(lines, [t] + ts, fit)
                         == FmrOutcome(map[ds.angles[0] := r.value], Aborted(KeyMissing("Hr2"))))
      && (r.Failure? ==> FmrAsWritten(lines, [t] + ts, fit) == Fmr(lines, [t] + ts, fit))
  {
    var ds := Load(lines).value;
    var ts' := [t] + ts;
    assert ts'[0] == t && ts'[1..] == ts;
    var r := Attempt(ds.rows, ds.angles[0], t.typed, fit);
    assert AttemptOn(ds.rows, fit)(ds.angles[0], t.typed) == r;
    if r.Success? {
      assert map[][ds.angles[0] := r.value] == map[ds.angles[0] := r.value];
    }
  }

  /** A file with one angle whose first fit succeeds, answered with '3':
      the intended sweep completes, the written one stops on the missing
      key. */
  lemma FmrDiscrepancy(lines: seq<string>, t1: Turn, t2: Turn, fit: Optimizer)
    requires Load(lines).Success? && |Load(lines).value.angles| == 1
    requires Attempt(Load(lines).value.rows, Load(lines).value.angles[0], t1.typed, fit).Success?
    requires Strip(t2.raw) == "3"
    ensures Fmr(lines, [t1, t2], fit).halt == Completed
    ensures FmrAsWritten(lines, [t1, t2], fit).halt == Aborted(KeyMissing("Hr2"))
  {
    var ds := Load(lines).value;
    var attempt := AttemptOn(ds.rows, fit);
    assert attempt(ds.angles[0], t1.typed) == Attempt(ds.rows, ds.angles[0], t1.typed, fit);
    AnswerChoice(t2.raw);
    ReadAllCons(t1, [t2]);
    ReadAllCons(t2, []);
    assert ReadAll([t1, t2]) == [Read(t1), Read(t2)] + [] by {
      assert [t1, t2] == [t1] + [t2] && [t2] == [t2] + [];
    }
    FirstFitThenFinish(attempt, ds.angles[0], Read(t1), Read(t2), []);
    assert ds.angles[1..] == [];
    FmrAsWrittenStopsAtFirstFit(lines, t1, [t2], fit);
    assert [t1] + [t2] == [t1, t2];
  }

  /** A completed chain adds exactly its angles to the store's keys. */
  lemma CompletedChainKeys(attempt: Attempter, angles: seq<real>, seed: Seed, store: Store)
    requires StrictlyIncreasing(angles)
    requires Chain(attempt, angles, seed, store).failure.None?
    ensures Chain(attempt, angles, seed, store).store.Keys == store.Keys + set a | a in angles
  {
    ChainStore(attempt, angles, seed, store);
    ChainCovers(attempt, angles, seed, store);
  }

  /** A completed sweep over distinct ascending angles has fitted every one
      of them, and nothing else. */
  lemma SweepCompleted(attempt: Attempter, angles: seq<real>, turns: seq<Turn>)
    requires angles != [] && StrictlyIncreasing(angles)
    requires Sweep(attempt, angles, turns).halt == Completed
    ensures Sweep(attempt, angles, turns).store.Keys == set a | a in angles
  {
    var b := Bootstrap(attempt, angles[0], Boot(None, map[]), ReadAll(turns)).state;
    assert b.store.Keys == {angles[0]};
    var run := Chain(attempt, angles[1..], AsSeed(b.prev.value), b.store);
    assert Sweep(attempt, angles, turns).store == run.store;
    assert StrictlyIncreasing(angles[1..]);
    CompletedChainKeys(attempt, angles[1..], AsSeed(b.prev.value), b.store);
    ElementsCons(angles);
  }

  lemma ElementsCons(s: seq<real>)
    requires s != []
    ensures (set a | a in s) == {s[0]} + set a | a in s[1..]
  {
    assert s == [s[0]] + s[1..];
  }

  /** In a completed sweep every angle after the smallest holds the fit that
      starts from the parameters stored for the angle before it. */
  lemma SweepSeedChain(attempt: Attempter, angles: seq<real>, turns: seq<Turn>)
    requires angles != [] && StrictlyIncreasing(angles)
    requires Sweep(attempt, angles, turns).halt == Completed
    ensures Linked(attempt, angles, Sweep(attempt, angles, turns).store)
  {
    var first := angles[0];
    var b := Bootstrap(attempt, first, Boot(None, map[]), ReadAll(turns)).state;
    assert angles == [first] + angles[1..];
    ChainLinked(attempt, first, angles[1..], b.store);
  }

  /** A completed `FMR` run has fitted every angle of the file, and only
      those. */
  lemma FmrCompleted(lines: seq<string>, turns: seq<Turn>, fit: Optimizer)
    requires Fmr(lines, turns, fit).halt == Completed
    ensures Load(lines).Success?
    ensures Fmr(lines, turns, fit).store.Keys == set a | a in Load(lines).value.angles
  {
    var ds := Load(lines).value;
    SweepCompleted(AttemptOn(ds.rows, fit), ds.angles, turns);
  }

  /** In a completed `FMR` run every angle after the smallest holds the fit
      of its points that starts from the parameters stored for the angle
      before it. */
  lemma FmrSeedChain(lines: seq<string>, turns: seq<Turn>, fit: Optimizer)
    requires Fmr(lines, turns, fit).halt == Completed
    ensures Load(lines).Success?
    ensures Linked(AttemptOn(Load(lines).value.rows, fit), Load(lines).value.angles, Fmr(lines, turns, fit).store)
  {
    var ds := Load(lines).value;
    SweepSeedChain(AttemptOn(ds.rows, fit), ds.angles, turns);
  }
}

=== FILE: text.dfy ===
/** The string operations the analysis code borrows from Python's `str`:
    `strip()` and `split()` with no argument (both use Python's notion of
    whitespace), `replace` of one character by another, `startswith` and
    `find`. */
module Text {

  /** Python's `str.isspace()` for one character: the ASCII controls
      TAB..CR, the separators U+001C..U+001F, SPACE, NEL, NBSP and the
      Unicode space separators. */
  predicate IsSpace(c: char) {
    || ('\t' <= c <= '\r')
    || ('\U{1C}' <= c <= ' ')
    || c == '\U{85}' || c == '\U{A0}' || c == '\U{1680}'
    || ('\U{2000}' <= c <= '\U{200A}')
    || c == '\U{2028}' || c == '\U{2029}' || c == '\U{202F}'
    || c == '\U{205F}' || c == '\U{3000}'
  }

  /** A token of `split()`: non-empty and free of whitespace. */
  predicate IsWord(w: string) {
    |w| > 0 && forall k :: 0 <= k < |w| ==> !IsSpace(w[k])
  }

  predicate AllSpace(s: string) {
    forall k :: 0 <= k < |s| ==> IsSpace(s[k])
  }

  /** Length of the longest all-whitespace prefix. */
  function LeadingSpaces(s: string): (n: nat)
    ensures n <= |s|
    ensures forall k :: 0 <= k < n ==> IsSpace(s[k])
    ensures n < |s| ==> !IsSpace(s[n])
  {
    if |s| > 0 && IsSpace(s[0]) then 1 + LeadingSpaces(s[1..]) else 0
  }

  /** Length of the longest all-whitespace suffix. */
  function TrailingSpaces(s: string): (n: nat)
    ensures n <= |s|
    ensures forall k :: |s| - n <= k < |s| ==> IsSpace(s[k])
    ensures n < |s| ==> !IsSpace(s[|s| - 1 - n])
  {
    if |s| > 0 && IsSpace(s[|s| - 1]) then 1 + TrailingSpaces(s[..|s| - 1]) else 0
  }

  /** Length of the longest whitespace-free prefix. */
  function WordLength(s: string): (n: nat)
    ensures n <= |s|
    ensures forall k :: 0 <= k < n ==> !IsSpace(s[k])
    ensures n < |s| ==> IsSpace(s[n])
  {
    if |s| > 0 && !IsSpace(s[0]) then 1 + WordLength(s[1..]) else 0
  }

  /** `s.lstrip()`: the suffix after the leading whitespace. */
  function TrimLeft(s: string): (r: string)
    ensures |r| <= |s| && r == s[|s| - |r|..]
    ensures AllSpace(s[..|s| - |r|])
    ensures r != [] ==> !IsSpace(r[0])
  {
    s[LeadingSpaces(s)..]
  }

  /** `s.rstrip()`: the prefix before the trailing whitespace. */
  function TrimRight(s: string): (r: string)
    ensures |r| <= |s| && r == s[..|r|]
    ensures AllSpace(s[|r|..])
    ensures r != [] ==> !IsSpace(r[|r| - 1])
  {
    s[..|s| - TrailingSpaces(s)]
  }

  /** Python's `s.strip()`: the slice of `s` left after removing whitespace
      from both ends. */
  function Strip(s: string): (r: string)
    ensures r == [] <==> AllSpace(s)
    ensures r != [] ==> !IsSpace(r[0]) && !IsSpace(r[|r| - 1])
  {
    TrimBothEmpty(s);
    TrimBothEnds(s);
    TrimRight(TrimLeft(s))
  }

  /** What strip removes is whitespace at the two ends, and nothing else. */
  lemma StripSlice(s: string)
    ensures exists i ::
      && 0 <= i <= |s| - |Strip(s)|
      && Strip(s) == s[i..i + |Strip(s)|]
      && AllSpace(s[..i])
      && AllSpace(s[i + |Strip(s)|..])
  {
    TrimBothSlice(s);
  }

  lemma TrimBothEmpty(s: string)
    ensures TrimRight(TrimLeft(s)) == [] <==> AllSpace(s)
  {
    var t := TrimLeft(s);
    var i := |s| - |t|;
    assert t != [] ==> TrimRight(t) != [];
    if t == [] {
      assert s[..i] == s;
    }
  }

  lemma TrimBothEnds(s: string)
    ensures var r := TrimRight(TrimLeft(s));
      r != [] ==> !IsSpace(r[0]) && !IsSpace(r[|r| - 1])
  {
    var t := TrimLeft(s);
    var r := TrimRight(t);
    assert r != [] ==> r[0] == t[0];
  }

  lemma TrimBothSlice(s: string)
    ensures var r := TrimRight(TrimLeft(s));
      var i := |s| - |TrimLeft(s)|;
      && 0 <= i <= |s| - |r|
      && r == s[i..i + |r|]
      && AllSpace(s[..i])
      && AllSpace(s[i + |r|..])
  {
    var t := TrimLeft(s);
    var r := TrimRight(t);
    var i := |s| - |t|;
    assert r == s[i..i + |r|];
    assert s[i + |r|..] == t[|r|..];
  }

  /** Python's `s.split()`: the maximal runs of non-whitespace, in order. */
  function Split(s: string): (ws: seq<string>)
    ensures forall i :: 0 <= i < |ws| ==> IsWord(ws[i])
    ensures ws == [] <==> AllSpace(s)
    decreases |s|
  {
    if s == [] then []
    else if IsSpace(s[0]) then
      assert AllSpace(s) <==> AllSpace(s[1..]) by {
        if AllSpace(s[1..]) {
          forall k | 0 < k < |s|
            ensures IsSpace(s[k])
          {
            assert s[k] == s[1..][k - 1];
          }
        }
      }
      Split(s[1..])
    else
      var n := WordLength(s);
      [s[..n]] + Split(s[n..])
  }

  /** Tokens joined by single spaces: the inverse of `Split` on words. */
  function JoinWords(ws: seq<string>): string
  {
    if ws == [] then []
    else if |ws| == 1 then ws[0]
    else ws[0] + " " + JoinWords(ws[1..])
  }

  /** `s.replace(from, to)` for single characters. */
  function ReplaceChar(s: string, from: char, to: char): (r: string)
    ensures |r| == |s|
    ensures forall i :: 0 <= i < |s| ==> r[i] == (if s[i] == from then to else s[i])
  {
    if s == [] then []
    else [if s[0] == from then to else s[0]] + ReplaceChar(s[1..], from, to)
  }

  /** `[item.replace(from, to) for item in items]`. */
  function ReplaceEach(items: seq<string>, from: char, to: char): (r: seq<string>)
    ensures |r| == |items|
    ensures forall i :: 0 <= i < |items| ==> r[i] == ReplaceChar(items[i], from, to)
  {
    if items == [] then []
    else [ReplaceChar(items[0], from, to)] + ReplaceEach(items[1..], from, to)
  }

  lemma ReplaceEachCons(w: string, ws: seq<string>, from: char, to: char)
    ensures ReplaceEach([w] + ws, from, to) == [ReplaceChar(w, from, to)] + ReplaceEach(ws, from, to)
  {
  }

  /** `s.startswith(p)`. */
  predicate StartsWith(s: string, p: string) {
    |p| <= |s| && s[..|p|] == p
  }

  predicate OccursAt(s: string, p: string, i: int) {
    0 <= i && i + |p| <= |s| && s[i..i + |p|] == p
  }

  function FindFrom(s: string, p: string, i: nat): (r: int)
    requires i <= |s|
    ensures r == -1 <==> forall j :: i <= j <= |s| ==> !OccursAt(s, p, j)
    ensures r != -1 ==>
      && i <= r <= |s|
      && OccursAt(s, p, r)
      && forall j :: i <= j < r ==> !OccursAt(s, p, j)
    decreases |s| - i
  {
    if OccursAt(s, p, i) then i
    else if i == |s| then -1
    else FindFrom(s, p, i + 1)
  }

  /** Python's `s.find(p)`: the first position where `p` occurs, or -1. */
  function Find(s: string, p: string): (r: int)
    ensures r == -1 <==> forall j :: 0 <= j <= |s| ==> !OccursAt(s, p, j)
    ensures r != -1 ==>
      && 0 <= r <= |s|
      && OccursAt(s, p, r)
      && forall j :: 0 <= j < r ==> !OccursAt(s, p, j)
  {
    FindFrom(s, p, 0)
  }

  /** Stripping twice is stripping once. */
  lemma StripIdempotent(s: string)
    ensures Strip(Strip(s)) == Strip(s)
  {
    var r := Strip(s);
    if r != [] {
      assert LeadingSpaces(r) == 0;
      assert TrimLeft(r) == r;
      assert TrailingSpaces(r) == 0;
      assert TrimRight(r) == r;
    }
  }

  // ---------------------------------------------------------------------
  // Facts about splitting.

  lemma SplitSkipsSpace(s: string)
    requires |s| > 0 && IsSpace(s[0])
    ensures Split(s) == Split(s[1..])
  {
  }

  lemma SplitWordFirst(s: string)
    requires |s| > 0 && !IsSpace(s[0])
    ensures Split(s) == [s[..WordLength(s)]] + Split(s[WordLength(s)..])
  {
  }

  /** A word splits to itself. */
  lemma SplitWord(w: string)
    requires IsWord(w)
    ensures Split(w) == [w]
  {
    SplitWordFirst(w);
    assert WordLength(w) == |w|;
    assert w[..|w|] == w;
    assert w[|w|..] == [];
  }

  /** The whitespace-free prefix is unaffected by what follows a space. */
  lemma {:induction false} WordLengthBeforeSpace(a: string, c: char, b: string)
    requires IsSpace(c)
    ensures WordLength(a + [c] + b) == WordLength(a)
    decreases |a|
  {
    if |a| > 0 && !IsSpace(a[0]) {
      assert (a + [c] + b)[1..] == a[1..] + [c] + b;
      WordLengthBeforeSpace(a[1..], c, b);
    }
  }

  /** A whitespace character separates: splitting distributes over it. */
  lemma {:induction false} SplitSeparated(a: string, c: char, b: string)
    requires IsSpace(c)
    ensures Split(a + [c] + b) == Split(a) + Split(b)
    decreases |a|
  {
    if a == [] {
      SplitSkipsSpace([c] + b);
      assert a + [c] + b == [c] + b;
      assert ([c] + b)[1..] == b;
    } else if IsSpace(a[0]) {
      SplitSeparatedSpace(a, c, b);
    } else {
      SplitSeparatedWord(a, c, b);
    }
  }

  lemma {:induction false} SplitSeparatedSpace(a: string, c: char, b: string)
    requires IsSpace(c) && |a| > 0 && IsSpace(a[0])
    ensures Split(a + [c] + b) == Split(a) + Split(b)
    decreases |a|, 0
  {
    var s := a + [c] + b;
    SplitSkipsSpace(s);
    SplitSkipsSpace(a);
    assert s[1..] == a[1..] + [c] + b;
    SplitSeparated(a[1..], c, b);
  }

  /** A word at the start of `a` is the first word of `a + [c] + b`. */
  lemma SplitWordBeforeSpace(a: string, c: char, b: string)
    requires IsSpace(c) && |a| > 0 && !IsSpace(a[0])
    ensures Split(a + [c] + b) == [a[..WordLength(a)]] + Split(a[WordLength(a)..] + [c] + b)
  {
    var s := a + [c] + b;
    var n := WordLength(a);
    WordLengthBeforeSpace(a, c, b);
    SplitWordFirst(s);
    assert s[..n] == a[..n];
    assert s[n..] == a[n..] + [c] + b;
  }

  lemma {:induction false} SplitSeparatedWord(a: string, c: char, b: string)
    requires IsSpace(c) && |a| > 0 && !IsSpace(a[0])
    ensures Split(a + [c] + b) == Split(a) + Split(b)
    decreases |a|, 0
  {
    var s := a + [c] + b;
    var n := WordLength(a);
    var w, rest := a[..n], a[n..];
    SplitWordBeforeSpace(a, c, b);
    assert Split(a) == [w] + Split(rest) by {
      SplitWordFirst(a);
    }
    assert Split(rest + [c] + b) == Split(rest) + Split(b) by {
      SplitSeparated(rest, c, b);
    }
  }

  /** Splitting undoes joining: tokens written with single spaces between
      them are read back unchanged. */
  lemma {:induction false} SplitJoin(ws: seq<string>)
    requires forall i :: 0 <= i < |ws| ==> IsWord(ws[i])
    ensures Split(JoinWords(ws)) == ws
  {
    if ws == [] {
      assert Split([]) == [];
    } else if |ws| == 1 {
      SplitWord(ws[0]);
    } else {
      assert IsWord(ws[0]);
      SplitWord(ws[0]);
      SplitJoin(ws[1..]);
      assert JoinWords(ws) == ws[0] + [' '] + JoinWords(ws[1..]);
      SplitSeparated(ws[0], ' ', JoinWords(ws[1..]));
      assert [ws[0]] + ws[1..] == ws;
    }
  }

  // ---------------------------------------------------------------------
  // Facts about replacing one non-whitespace character by another.

  lemma ReplaceSlice(s: string, from: char, to: char, i: nat, j: nat)
    requires i <= j <= |s|
    ensures ReplaceChar(s[i..j], from, to) == ReplaceChar(s, from, to)[i..j]
  {
  }

  /** Replacing in a concatenation replaces in each part. */
  lemma ReplaceConcat(a: string, b: string, from: char, to: char)
    ensures ReplaceChar(a + b, from, to) == ReplaceChar(a, from, to) + ReplaceChar(b, from, to)
  {
    var ra, rb := ReplaceChar(a, from, to), ReplaceChar(b, from, to);
    var l, r := ReplaceChar(a + b, from, to), ra + rb;
    assert |l| == |r|;
    forall i | 0 <= i < |l|
      ensures l[i] == r[i]
    {
      if i < |a| {
        assert (a + b)[i] == a[i] && r[i] == ra[i];
      } else {
        assert (a + b)[i] == b[i - |a|] && r[i] == rb[i - |a|];
      }
    }
    assert l == r;
  }

  /** After replacing, the replaced character no longer occurs. */
  lemma ReplaceRemoves(s: string, from: char, to: char)
    requires from != to
    ensures forall i :: 0 <= i < |s| ==> ReplaceChar(s, from, to)[i] != from
  {
  }

  /** Replacing twice is replacing once. */
  lemma ReplaceIdempotent(s: string, from: char, to: char)
    ensures ReplaceChar(ReplaceChar(s, from, to), from, to) == ReplaceChar(s, from, to)
  {
  }

  /** A string without the replaced character is left as it is. */
  lemma ReplaceAbsent(s: string, from: char, to: char)
    requires forall i :: 0 <= i < |s| ==> s[i] != from
    ensures ReplaceChar(s, from, to) == s
  {
  }

  lemma {:induction false} LeadingSpacesReplace(s: string, from: char, to: char)
    requires !IsSpace(from) && !IsSpace(to)
    ensures LeadingSpaces(ReplaceChar(s, from, to)) == LeadingSpaces(s)
    decreases |s|
  {
    if |s| > 0 && IsSpace(s[0]) {
      ReplaceSlice(s, from, to, 1, |s|);
      LeadingSpacesReplace(s[1..], from, to);
    }
  }

  lemma {:induction false} WordLengthReplace(s: string, from: char, to: char)
    requires !IsSpace(from) && !IsSpace(to)
    ensures WordLength(ReplaceChar(s, from, to)) == WordLength(s)
    decreases |s|
  {
    if |s| > 0 && !IsSpace(s[0]) {
      ReplaceSlice(s, from, to, 1, |s|);
      WordLengthReplace(s[1..], from, to);
    }
  }

  lemma {:induction false} TrailingSpacesReplace(s: string, from: char, to: char)
    requires !IsSpace(from) && !IsSpace(to)
    ensures TrailingSpaces(ReplaceChar(s, from, to)) == TrailingSpaces(s)
    decreases |s|
  {
    if |s| > 0 && IsSpace(s[|s| - 1]) {
      ReplaceSlice(s, from, to, 0, |s| - 1);
      TrailingSpacesReplace(s[..|s| - 1], from, to);
    }
  }

  /** A prefix that contains neither character is recognised equally before
      and after the replacement. */
  lemma StartsWithReplace(t: string, p: string, from: char, to: char)
    requires from !in p && to !in p
    ensures StartsWith(ReplaceChar(t, from, to), p) <==> StartsWith(t, p)
  {
    if |p| <= |t| {
      ReplaceSlice(t, from, to, 0, |p|);
      assert t[0..|p|] == t[..|p|];
      var r := ReplaceChar(t, from, to);
      if r[..|p|] == p {
        forall k | 0 <= k < |p|
          ensures t[k] == p[k]
        {
          assert r[k] == p[k];
          assert p[k] in p;
        }
      }
    }
  }

  lemma TrimLeftReplace(s: string, from: char, to: char)
    requires !IsSpace(from) && !IsSpace(to)
    ensures TrimLeft(ReplaceChar(s, from, to)) == ReplaceChar(TrimLeft(s), from, to)
  {
    LeadingSpacesReplace(s, from, to);
    ReplaceSlice(s, from, to, LeadingSpaces(s), |s|);
  }

  lemma TrimRightReplace(s: string, from: char, to: char)
    requires !IsSpace(from) && !IsSpace(to)
    ensures TrimRight(ReplaceChar(s, from, to)) == ReplaceChar(TrimRight(s), from, to)
  {
    TrailingSpacesReplace(s, from, to);
    ReplaceSlice(s, from, to, 0, |s| - TrailingSpaces(s));
  }

  /** Stripping commutes with replacing non-whitespace characters. */
  lemma StripReplace(s: string, from: char, to: char)
    requires !IsSpace(from) && !IsSpace(to)
    ensures Strip(ReplaceChar(s, from, to)) == ReplaceChar(Strip(s), from, to)
  {
    TrimLeftReplace(s, from, to);
    TrimRightReplace(TrimLeft(s), from, to);
  }

  /** Splitting commutes with replacing non-whitespace characters: the
      tokens of the replaced text are the replaced tokens. */
  lemma {:induction false} SplitReplace(s: string, from: char, to: char)
    requires !IsSpace(from) && !IsSpace(to)
    ensures Split(ReplaceChar(s, from, to)) == ReplaceEach(Split(s), from, to)
    decreases |s|
  {
    var r := ReplaceChar(s, from, to);
    if s == [] {
    } else if IsSpace(s[0]) {
      assert IsSpace(r[0]);
      assert Split(r) == Split(r[1..]);
      ReplaceSlice(s, from, to, 1, |s|);
      SplitReplace(s[1..], from, to);
    } else {
      var n := WordLength(s);
      assert WordLength(r) == n by {
        WordLengthReplace(s, from, to);
      }
      assert Split(r) == [r[..n]] + Split(r[n..]);
      assert Split(s) == [s[..n]] + Split(s[n..]);
      ReplaceSlice(s, from, to, 0, n);
      ReplaceSlice(s, from, to, n, |s|);
      assert s[0..n] == s[..n] && r[0..n] == r[..n];
      assert s[n..|s|] == s[n..] && r[n..|s|] == r[n..];
      SplitReplace(s[n..], from, to);
      ReplaceEachCons(s[..n], Split(s[n..]), from, to);
    }
  }

  // ---------------------------------------------------------------------
  // Lines written as words.

  lemma JoinWordsFirst(ws: seq<string>)
    requires |ws| > 0
    ensures |ws| == 1 ==> JoinWords(ws) == ws[0]
    ensures |ws| > 1 ==> JoinWords(ws) == ws[0] + [' '] + JoinWords(ws[1..])
  {
    if |ws| > 1 {
      assert " " == [' '];
    }
  }

  /** Words joined by spaces neither start nor end with whitespace. */
  lemma {:induction false} JoinWordsEdges(ws: seq<string>)
    requires |ws| > 0 && forall i :: 0 <= i < |ws| ==> IsWord(ws[i])
    ensures var s := JoinWords(ws); |s| > 0 && !IsSpace(s[0]) && !IsSpace(s[|s| - 1])
  {
    JoinWordsFirst(ws);
    if |ws| > 1 {
      JoinWordsEdges(ws[1..]);
      var t := JoinWords(ws[1..]);
      var s := ws[0] + [' '] + t;
      assert s[0] == ws[0][0];
      assert s[|s| - 1] == t[|t| - 1];
    }
  }

  /** A string without whitespace at either end strips to itself. */
  lemma StripUntrimmed(s: string)
    requires |s| > 0 && !IsSpace(s[0]) && !IsSpace(s[|s| - 1])
    ensures Strip(s) == s
  {
    StripSlice(s);
    var r := Strip(s);
    var i :| 0 <= i <= |s| - |r| && r == s[i..i + |r|] && AllSpace(s[..i]) && AllSpace(s[i + |r|..]);
    assert r == s[0..|s|];
  }

  /** A line of words starts with a whitespace-free prefix exactly when its
      first word does. */
  lemma StartsWithWords(ws: seq<string>, p: string)
    requires |ws| > 0 && forall i :: 0 <= i < |ws| ==> IsWord(ws[i])
    requires forall k :: 0 <= k < |p| ==> !IsSpace(p[k])
    ensures StartsWith(JoinWords(ws), p) <==> StartsWith(ws[0], p)
  {
    JoinWordsFirst(ws);
    var s := JoinWords(ws);
    var w := ws[0];
    if |p| <= |w| {
      assert s[..|p|] == w[..|p|];
    } else if |p| <= |s| {
      assert |ws| > 1;
      assert s[|w|] == ' ';
      assert s[..|p|][|w|] != p[|w|];
    }
  }
}
